=== FILE: README.md ===
# Task manager core in Dafny

A functional model of the task manager's server routes and of the client
helpers that build what those routes receive. The `tasks` and `users` tables
are sequences of immutable rows. Every handler is a pure function from the
tables, the request and the caller that `verifyToken` produced to a reply,
paired with the table the handler leaves behind.

- `wrappers.dfy` — `Option`, for a NULL column, an absent JSON field or a missing row.
- `text.dfy` — the JavaScript string operations the code relies on:
  - `trim`;
  - `split(c)[0]` and `split(c).pop()`;
  - `replace(/\\/g, '/')`;
  - `String(n)`;
  - ASCII lower-casing.
- `pattern.dfy` — PostgreSQL `LIKE`/`ILIKE`, and the proof that the title search is a case-insensitive substring test.
- `ordering.dfy` — `ORDER BY created_at DESC` as an insertion sort, with a total tie-break.
- `paging.dfy` — `LIMIT`/`OFFSET` windows, pages and `Math.ceil(total / limit)`.
- `seqs.dfy` — order-preserving `filter` and in-place `map` over sequences.
- `records.dfy` — the `Task`/`User` rows, the `{id, role}` caller, replies, primary keys and serial ids.
- `task_routes.dfy` — server/routes/tasks.js:
  - the listing, with the SQL text and its `$n` parameter list modelled as data and executed against the table;
  - update, delete and create.
- `middleware.dfy` — server/middleware/verifyToken.js and server/middleware/verifyAdmin.js.
- `admin_routes.dfy` — server/routes/admin.js: the router-level gate, `/stats`, `/users`, `/tasks`.
- `auth_routes.dfy` — server/routes/auth.js: register and login. Hashing, password comparison and signing are oracles.
- `task_item.dfy` — client/src/components/TaskItem.jsx: status class, offered actions, due-date and attachment labels.
- `task_form.dfy` — client/src/components/TaskForm.jsx: edit-mode load, reset, default assignee, assignee choices, the two payloads, the state after submit.
- `admin_tasks_section.dfy` — client/src/components/AdminTasksSection.jsx: the inline due-date editor, its request body and the replacement of the returned row.
- `admin_page.dfy` — client/src/pages/AdminPage.jsx: access and redirect, create-user validation and body, role change, the self-row rule.

The model follows what the code does, including where that is not what a task manager might be expected to do:

- **Order.** The listing is ordered by `created_at` descending, not by due date.
- **Updates.**
  - An update or delete only touches a row assigned to the caller. There is no administrator exception.
  - An update overwrites all five body columns. No per-role field restriction applies.
- **Deletes.** A `USER` may delete a task of any status; only the card in the client hides the button.
- **Creates.** Any authenticated caller may create a task.
- **Paging.** Page and limit are not checked. A page below 1 with a positive limit, or a negative limit, makes `LIMIT`/`OFFSET` negative. The data query then fails and the handler answers 500. A limit of 0 gives an empty page, and `Math.ceil(n / 0)` gives a `null` page count.

## Model

| member | source | states |
|---|---|---|
| Text.Trim | client/src/components/TaskForm.jsx:62 | `trim` removes exactly the leading and trailing JavaScript white space; the result is empty iff the input is all white space |
| Text.BeforeFirst | client/src/components/TaskItem.jsx:44 | `split(c)[0]` is the longest prefix without `c`, followed by `c` unless it is the whole string |
| Text.AfterLast | client/src/components/TaskItem.jsx:51 | `split(c).pop()` is the longest suffix without `c`, preceded by `c` unless it is the whole string |
| Text.SlashPath | server/routes/tasks.js:39 | every backslash becomes `/` and every other character stays in place, so the path has the same length and no backslash |
| Text.SlashPathNormalForm | server/routes/tasks.js:38-39 | rewriting twice is rewriting once, and a path is left unchanged iff it has no backslash |
| Text.Decimal | server/routes/tasks.js:17 | `String(n)` of a non-negative integer is a non-empty digit string without a leading zero whose digits denote `n` |
| Text.DecimalOfDigits | client/src/components/TaskForm.jsx:45 | a digit string without a leading zero is the `String` of the number it denotes |
| Text.DecimalInjective | client/src/components/TaskForm.jsx:45 | different ids print as different strings |
| Text.Lower | server/routes/tasks.js:94 | ILIKE's case folding, character by character (ASCII) |
| Pattern.Contains | server/routes/tasks.js:93 | the pattern is the search term between two `%` |
| Pattern.FixedLengthPattern | server/routes/tasks.js:94 | `Like`, the reference definition of `LIKE`: a pattern without `%` or backslash matches only strings of its own length |
| Pattern.ILikeIgnoresCase | server/routes/tasks.js:94 | `ILike`, the reference definition of `ILIKE`: lower-casing either side does not change the outcome |
| Pattern.PrefixPattern | server/routes/tasks.js:94 | for a term without wildcards, `s LIKE q%` iff `q` is a prefix of `s` |
| Pattern.LeadingPercent | server/routes/tasks.js:94 | `s LIKE %r` iff some suffix of `s` matches `r` |
| Pattern.ContainsIsSubstring | server/routes/tasks.js:92-96 | for a term without wildcards, `s LIKE %q%` iff `q` occurs in `s` |
| Pattern.SearchIsCaseInsensitiveSubstring | server/routes/tasks.js:92-96 | `title ILIKE %search%` iff the lower-cased term occurs in the lower-cased title |
| Ordering.Insert | server/routes/tasks.js:99 | inserting into a newest-first sequence keeps it newest first and adds exactly one element |
| Ordering.SortNewestFirst | server/routes/tasks.js:99 | the result is newest first and a permutation of the input |
| Paging.TimesIsProduct | server/routes/tasks.js:104 | the offset computed by repeated addition is `(page - 1) * limit` |
| Paging.Window | server/routes/tasks.js:106-109 | `LIMIT l OFFSET o` holds `min(l, max(0, n - o))` rows, the rows from position `o` on |
| Paging.CeilDiv | server/routes/tasks.js:118 | `totalPages` is the least `q` with `q * limit >= totalItems` |
| Paging.FirstPagesArePrefix | server/routes/tasks.js:102-109 | pages 1..k concatenated are the first `k * limit` rows |
| Paging.AllPagesCoverAll | server/routes/tasks.js:117-118 | reading pages 1..totalPages yields every row once, in order |
| Paging.PageEmptyExactlyPastLast | server/routes/tasks.js:102-118 | a page is empty iff its number exceeds `totalPages` |
| Records.FindUser | server/routes/tasks.js:66 | the join finds a user row with the id, or there is none |
| Records.NextTaskId | server/routes/tasks.js:41-44 | a serial `task_id` differs from every id in use |
| Records.NextUserId | server/routes/auth.js:28-29 | a serial `user_id` differs from every id in use |
| TaskRoutes.PlanList | server/routes/tasks.js:63-114 | each `$n` names `params[n-1]`; the count list is `[callerId] ++ filter values`, the data list minus its last two; both statements bind and mean exactly the listing filter |
| TaskRoutes.ExtraParamsIgnored | server/routes/tasks.js:114 | values past the highest placeholder do not change what a `WHERE` selects |
| TaskRoutes.PlanFacts | server/routes/tasks.js:85-96 | the conjuncts are own-tasks AND exact status (if given) AND title ILIKE `%search%` (if given); an absent or empty filter removes nothing |
| TaskRoutes.JoinAssignees | server/routes/tasks.js:63-67 | every joined row is a task of the table with an existing assignee row and carries that user's name; when every task has one, all are kept in order |
| TaskRoutes.JoinKeepsAssigned | server/routes/tasks.js:63-67 | the inner join keeps exactly the tasks whose assignee row exists, each as often as in the table, as a subsequence in table order |
| TaskRoutes.Matching | server/routes/tasks.js:63-96 | every matching task is a task of the table that passes the filters, and every such task is among them |
| TaskRoutes.MatchingSelects | server/routes/tasks.js:63-96 | the matching tasks are exactly the caller's tasks that pass the filters, each as often as in the table, as a subsequence in table order |
| TaskRoutes.WhereIsMatching | server/routes/tasks.js:85-96 | a `WHERE` meaning the listing filter selects exactly the matching tasks |
| TaskRoutes.ListTasks | server/routes/tasks.js:57-135 | 500 "Server Error" exactly when a negative `LIMIT` or `OFFSET` reaches the data query; otherwise at most `limit` own matching rows newest first, with `totalItems` counting every match whatever the page and `totalPages` null iff the limit is 0; for a positive page and limit (defaults 1 and 10) the rows are the requested page of the listing and `totalPages` the ceiling |
| TaskRoutes.RunListing | server/routes/tasks.js:101-115 | the data query yields rows iff the limit is 0, or positive with a page of at least 1; those rows are at most `limit` own matches newest first; the count query always yields the number of matches |
| TaskRoutes.RunListingPage | server/routes/tasks.js:102-113 | for a positive page and limit the data query yields exactly the requested page of the listing |
| TaskRoutes.Respond | server/routes/tasks.js:117-133 | a reply exists iff both queries succeeded, otherwise 500; `totalPages` is null for limit 0 and the ceiling otherwise; `currentPage` and `itemsPerPage` echo the parsed values |
| TaskRoutes.OffsetIsProduct | server/routes/tasks.js:102-104 | the offset is `(pageNumber - 1) * pageLimit` for any integers, negative ones included |
| TaskRoutes.OffsetSign | server/routes/tasks.js:102-109 | the offset is negative iff the page is below 1 with a positive limit, or above 1 with a negative limit |
| TaskRoutes.PlanBinds | server/routes/tasks.js:106-113 | the data statement's parameters bind iff `LIMIT` and `OFFSET` are not negative |
| TaskRoutes.ListedRowsCount | server/routes/tasks.js:63-67 | when the caller's own user row exists, the join keeps every match, so the listing has one row per match |
| TaskRoutes.RunData | server/routes/tasks.js:112-113 | the data query fails iff its parameters do not bind; otherwise its rows pass the `WHERE`, come newest first and number at most the `LIMIT` |
| TaskRoutes.RunCount | server/routes/tasks.js:112-117 | the count query fails iff its parameters do not bind; otherwise the count is at most the table size |
| TaskRoutes.ListFacts | server/routes/tasks.js:112-117 | running the built statements with the built lists gives the reference page and the reference count |
| TaskRoutes.ListingShowsOnlyOwnMatches | server/routes/tasks.js:63-80 | whatever the caller's role, every listed task is assigned to the caller and passes the filters |
| TaskRoutes.PageRowsListed | server/routes/tasks.js:99-109 | every row of a page is a matching task of the table |
| TaskRoutes.ListingIsNewestFirst | server/routes/tasks.js:99 | a page is ordered newest first |
| TaskRoutes.WindowFacts | server/routes/tasks.js:106-109 | a window holds rows of the listing and keeps its order |
| TaskRoutes.PagesCoverListing | server/routes/tasks.js:117-118 | when the caller's user row exists, `totalItems` equals the rows the pages show and pages 1..totalPages show each once |
| TaskRoutes.TwentyFiveTasksTenPerPage | server/routes/tasks.js:60 | 25 matches at limit 10: 3 pages, 5 rows on page 3 |
| TaskRoutes.SearchMeansSubstring | server/routes/tasks.js:92-96 | a search without wildcards keeps exactly the own tasks whose title contains it, ignoring case |
| TaskRoutes.Overwrite | server/routes/tasks.js:148 | the `SET` clause replaces exactly the five body columns, NULL for absent fields, keeps every other column, and no other row does both |
| TaskRoutes.UpdateTask | server/routes/tasks.js:139-166 | a due date the `DATE` column refuses (`''` always) gives 500 with the table unchanged; otherwise only rows with that id assigned to the caller change, each overwritten in exactly five columns, or 404 with the table unchanged |
| TaskRoutes.UpdateRewritesOneRow | server/routes/tasks.js:146-151 | with `task_id` a key, a successful update replaces exactly one row in place |
| TaskRoutes.RemoveOwned | server/routes/tasks.js:175-178 | no kept row is the caller's row of that id and every other row is kept; nothing is removed iff no row qualifies |
| TaskRoutes.RemoveKeepsOthers | server/routes/tasks.js:175-178 | the rows left are every other row, each as often as before, as a subsequence in table order |
| TaskRoutes.RemoveAtMostOne | server/routes/tasks.js:175-178 | with unique task ids the `DELETE ... WHERE task_id = $1 AND assignee_id = $2` removes at most one row |
| TaskRoutes.DeleteTask | server/routes/tasks.js:171-186 | removes exactly the caller's row of that id, whatever its status, keeping the rest in order, and answers a message; otherwise 404 and the table unchanged |
| TaskRoutes.StoredFileName | server/routes/tasks.js:15-18 | the stored name splits at its first `-` into the timestamp and at its last into the original name (when that has no `-`) |
| TaskRoutes.CreateTask | server/routes/tasks.js:29-52 | a due date the `DATE` column refuses gives 500 and no row; otherwise appends one row with a fresh id from the body fields, no role check, NULL request message, and `file_path` the upload path rewritten by `SlashPath`, or NULL |
| Middleware.VerifyToken | server/middleware/verifyToken.js:5-28 | a missing or empty header gives 401 "No token"; a rejected token gives 401 "not valid"; otherwise the token's user is passed on |
| Middleware.VerifyAdmin | server/middleware/verifyAdmin.js:3-13 | `next` iff the user is present with role exactly `ADMIN`; otherwise 403, never both |
| Middleware.AdminGate | server/routes/admin.js:10-11 | admin routes run only for a valid token whose user is `ADMIN`; 401 for token failures, 403 for the role |
| Middleware.GuardedByAdminGate | server/routes/admin.js:10-11 | behind both guards a handler's reply reaches exactly the callers with a valid token of role `ADMIN`; everyone else gets a guard's 401 or 403 whatever the handler says |
| Middleware.RoleMatchIsExact | server/middleware/verifyAdmin.js:7-10 | `admin` and `USER` are refused, `ADMIN` passes |
| AdminRoutes.CountStatus | server/routes/admin.js:25 | the reference count of tasks with exactly that status; `GroupByStatus`'s group counts and `StatsOf`'s buckets are proved equal to it |
| AdminRoutes.AddToGroups | server/routes/admin.js:25 | adding a task keeps one group per status and raises only its group's count |
| AdminRoutes.GroupByStatus | server/routes/admin.js:25 | `GROUP BY status` has one group per status whose count is the number of tasks with it |
| AdminRoutes.FoldCounts | server/routes/admin.js:29-32 | the object has a key for every group's status and only those, each holding the count of a group with that key |
| AdminRoutes.Bucket | server/routes/admin.js:38-40 | `statusCounts[key] \|\| 0` is the stored count, or 0 when the key is missing |
| AdminRoutes.FoldReadsGroup | server/routes/admin.js:29-32 | folding the groups into an object, `statusCounts[s] \|\| 0` reads the group count of status `s` |
| AdminRoutes.StatsOf | server/routes/admin.js:14-42 | the totals are the row counts; each bucket counts tasks with that exact status, 0 when none |
| AdminRoutes.BucketsWithinTotal | server/routes/admin.js:37-41 | the buckets sum to at most `totalTasks`, with equality iff no task has another status |
| AdminRoutes.GetStats | server/routes/admin.js:14-48 | the stats reach exactly the callers the gate admits and are then the `/stats` result, each bucket the exact-status count, within the total; otherwise 401 or 403 |
| AdminRoutes.PublicUsers | server/routes/admin.js:55 | the projection drops the password hash of every row |
| AdminRoutes.ListUsers | server/routes/admin.js:54-57 | every user once, projected, newest first |
| AdminRoutes.GetUsers | server/routes/admin.js:51-57 | the user listing reaches exactly the callers the gate admits and is then `/users`'s listing: every user once, projected, newest first; otherwise 401 or 403 |
| AdminRoutes.AssigneeName | server/routes/admin.js:69-71 | NULL iff the task has no assignee or no user has that id, otherwise that user's name |
| AdminRoutes.LeftJoin | server/routes/admin.js:69-71 | the left join keeps one row per task |
| AdminRoutes.ListAllTasks | server/routes/admin.js:68-74 | every task exactly once (as a multiset), newest first, with its assignee's name |
| AdminRoutes.GetAllTasks | server/routes/admin.js:65-74 | the task listing reaches exactly the callers the gate admits and is then `/tasks`'s listing: every task once, newest first, each with its assignee's name; otherwise 401 or 403 |
| AdminRoutes.OrphanTaskStillListed | server/routes/admin.js:71 | a task whose assignee row is missing is listed with no name |
| AuthRoutes.FindByEmail | server/routes/auth.js:15 | the first row with that email, or none exists |
| AuthRoutes.Register | server/routes/auth.js:9-51 | a taken email gives 409 and no insert; otherwise one row with role `USER`, the hashed password, a fresh id, and a token over that id and role; unique emails and ids are kept |
| AuthRoutes.Login | server/routes/auth.js:54-104 | unknown email and wrong password give the same 401; success returns the row's id, name, email, role and the token, never the hash |
| AuthRoutes.RegisterThenLogin | server/routes/auth.js:28-99 | logging in right after registering succeeds as the new `USER` with the registration token |
| TaskItem.StatusClass | client/src/components/TaskItem.jsx:9-20 | the three statuses get their classes, anything else `''` |
| TaskItem.StatusClassesDistinct | client/src/components/TaskItem.jsx:9-20 | the three classes are distinct |
| TaskItem.ActionsFor | client/src/components/TaskItem.jsx:26-28 | a `USER` may edit iff not completed and delete iff completed, exactly one; anyone else both |
| TaskItem.DueLabel | client/src/components/TaskItem.jsx:44 | `N/A` without a due date, otherwise the prefix before the first `T` |
| TaskItem.DueLabelOfDate | client/src/components/TaskItem.jsx:44 | a plain date is shown unchanged, and so is the date part of a timestamp |
| TaskItem.AttachmentLabel | client/src/components/TaskItem.jsx:47-51 | a link iff `file_path` is set; its label is the text after the last `-` and has no `-` |
| TaskItem.AttachmentShowsOriginalName | client/src/components/TaskItem.jsx:51 | a stored upload's label is the original file name when that has no `-` or backslash |
| TaskForm.OrEmpty | client/src/components/TaskForm.jsx:27-28 | `v \|\| ''` is empty iff the value is NULL or empty, else the value |
| TaskForm.LoadForEdit | client/src/components/TaskForm.jsx:25-33 | copies title and description or `''`, `Pending` for a missing status, the due date as the card shows it: the prefix before the first `T`, or `''` without one; no file, no request message, the assignee left alone |
| TaskForm.EditRoundTrip | client/src/components/TaskForm.jsx:25-76 | opening a task and submitting at once sends back its trimmed title and description, its status, no request message, and a stored plain date unchanged |
| TaskForm.FirstUserRole | client/src/components/TaskForm.jsx:44 | `find` returns the first user with role `USER`, or nothing when none has it |
| TaskForm.DefaultAssignee | client/src/components/TaskForm.jsx:44 | the first `USER`, otherwise the first user |
| TaskForm.OnUsersChange | client/src/components/TaskForm.jsx:42-47 | only the assignee changes; in create mode with users it becomes the decimal id of the first `USER`, or of the first user when there is none; otherwise nothing changes |
| TaskForm.DefaultAssigneeOffered | client/src/components/TaskForm.jsx:44-117 | the preselected assignee is among the select's options iff some user has role `USER` or the first user has no role |
| TaskForm.AssigneeChoices | client/src/components/TaskForm.jsx:115-117 | the choices are exactly the users with role `USER` or none |
| TaskForm.KeyNamesDistinct | client/src/components/TaskForm.jsx:82-87 | the six entry names are distinct |
| TaskForm.EditPayloadOf | client/src/components/TaskForm.jsx:68-76 | status, trimmed title and description, due date or null; a trimmed request message only from a `USER` who wrote one; no assignee |
| TaskForm.CreatePayloadOf | client/src/components/TaskForm.jsx:81-87 | the entries are exactly title, description, status, then due date, assignee and file each only when given, in that order, each name once, each with its value |
| TaskForm.OptionalFieldKeys | client/src/components/TaskForm.jsx:85-87 | the optional entries are named due date, assignee, file, in that order, each only when given |
| TaskForm.OptionalFields | client/src/components/TaskForm.jsx:85-87 | each optional entry is found iff it was given |
| TaskForm.FixedThenOptional | client/src/components/TaskForm.jsx:82-84 | the three fixed entries come first and are found ahead of anything appended |
| TaskForm.Submit | client/src/components/TaskForm.jsx:60-90 | nothing is sent iff the title is blank; else the edit or create payload |
| TaskForm.AfterSubmit | client/src/components/TaskForm.jsx:62-94 | a blank title returns before the `try` and changes nothing, so editing goes on; otherwise editing ends, a sent create resets the form and a failed one keeps it, and an edit leaves an empty form with the default assignee |
| TaskForm.CreateAgainSendsNoAssignee | client/src/components/TaskForm.jsx:41-58 | after a sent create the assignee is `''`, so the next create sends no `assignee_id` entry, while a create right after the users effect sends one |
| TaskForm.EditPayloadClearsAssignee | client/src/components/TaskForm.jsx:68-73 | an accepted update built from the edit payload stores no assignee, and the task leaves the caller's listing |
| AdminTasksSection.HandleDueEdit | client/src/components/AdminTasksSection.jsx:29-33 | the editing id becomes the task's id and the input its due date or `''` |
| AdminTasksSection.CancelDueEdit | client/src/components/AdminTasksSection.jsx:96 | Cancel leaves edit mode and touches neither rows nor input |
| AdminTasksSection.SaveBody | client/src/components/AdminTasksSection.jsx:37-44 | the body copies title, description, status and assignee, takes the input as due date, and the request message or `''` |
| AdminTasksSection.SaveBodyKeepsOtherFields | client/src/components/AdminTasksSection.jsx:37-44 | applied to the row it came from, the save body changes only the due date; its request message makes no difference to the update |
| AdminTasksSection.ReplaceRow | client/src/components/AdminTasksSection.jsx:49-53 | rows with the returned id become the returned task, all others stay, length kept |
| AdminTasksSection.HandleDueSave | client/src/components/AdminTasksSection.jsx:46-56 | success shows the returned task in its id's row and clears edit state; every row keeps its place and id, so distinct ids stay distinct; failure changes nothing |
| AdminTasksSection.SaveReplacesOneRow | client/src/components/AdminTasksSection.jsx:49-53 | with distinct ids exactly one row is replaced in place; an unknown id changes nothing |
| AdminTasksSection.DueSaveChangesOnlyDueDate | client/src/components/AdminTasksSection.jsx:37-44 | an accepted save returns the shown task with only its due date changed |
| AdminTasksSection.AdminSaveOfOthersTaskIsRefused | client/src/components/AdminTasksSection.jsx:35-44 | an admin saving a date the `DATE` column accepts on a task assigned to someone else gets 404 and the table is unchanged |
| AdminTasksSection.SavingEmptyDueDateFails | client/src/components/AdminTasksSection.jsx:29-55 | saving a task that has no due date without typing one sends `''`, which answers 500 for any caller and changes neither table nor rows |
| AdminPage.ViewFor | client/src/pages/AdminPage.jsx:29-33 | renders and fetches iff the user is `ADMIN`; a logged-in non-admin is redirected and sees nothing |
| AdminPage.PageMatchesServerGate | client/src/pages/AdminPage.jsx:104-106 | the page renders for exactly the users `verifyAdmin` passes |
| AdminPage.NewUserOf | client/src/pages/AdminPage.jsx:69-74 | trimmed username and email, the password as typed, the selected role |
| AdminPage.HandleCreateUser | client/src/pages/AdminPage.jsx:57-88 | a blank field sends nothing and says "All fields are required."; success clears the inputs and resets the role to `ADMIN`; failure shows the server's message or a default |
| AdminPage.CreateDefaultsToAdmin | client/src/pages/AdminPage.jsx:18 | an untouched role sends `ADMIN`; success leaves the initial form |
| AdminPage.HandleRoleChange | client/src/pages/AdminPage.jsx:91-102 | success rewrites the role of the users with that id, length and order kept; failure changes nothing |
| AdminPage.RoleChangeRewritesOneUser | client/src/pages/AdminPage.jsx:94-98 | with distinct ids exactly one user changes, in place |
| AdminPage.SelectorCannotChangeOwnRole | client/src/pages/AdminPage.jsx:207-219 | a role change started from any row with a selector leaves the viewer's own row unchanged |
| AdminPage.OnlyOwnRowLacksSelector | client/src/pages/AdminPage.jsx:207-219 | with distinct ids at most one row, the viewer's, lacks the selector |

## Left out

- I/O and the database connection pool are not modelled. Tables are sequences, and each SQL statement is a function over them. In the listing a bind-count or parameter-type mismatch, or a negative `LIMIT` or `OFFSET`, is an absent result, and the handler answers 500. In update and create a due date the `DATE` column refuses gives 500; which non-empty texts it accepts is the parameter `isDate`.
- TaskRoutes.DateAccepted: an accepted date is stored as the text sent. PostgreSQL stores the date and hands it back as `YYYY-MM-DD`, which is the same text only for a date already in that form.
- bcrypt, jsonwebtoken and `Date.now()` are parameters: `hash`, `check`, `sign`, `verify` and the timestamps. Token expiry needs a clock and is not modelled.
- The concurrent `Promise.all` reads run one after the other. The check-then-insert race of registration is out of scope.
- TaskRoutes.ListTasks: page and limit are the integers `parseInt` returns. A non-numeric value gives NaN, which the code does not handle, and it is not modelled.
- Pattern.Like: the error PostgreSQL raises for a pattern ending in a lone backslash is modelled as a failed match.
- Text.Lower: ILIKE's Unicode case folding is reduced to ASCII.
- Ordering.SortNewestFirst: rows with equal `created_at` are ordered by id, larger first. SQL leaves that order unspecified.
- AuthRoutes.Register: assumes the body has all three fields. A missing field makes the database or bcrypt throw, which ends in a 500.
- TaskRoutes.UpdateTask: a handler reached with no `user` claim in the token throws and answers 500 (tasks.js:151). A non-numeric `:id` fails the integer bind and also answers 500. Neither is modelled: the caller id and task id are `nat`.
- TaskRoutes.CreateTask: a missing `user` claim throws at tasks.js:34 and answers 500. An `assignee_id` that is not an integer fails the bind and answers 500. Neither is modelled: the caller is not read and `assigneeId` is an `Option<nat>`.
- TaskRoutes.ListTasks: a missing `user` claim throws at tasks.js:71 and answers 500. This is not modelled.
- TaskRoutes.DeleteTask: a missing `user` claim (tasks.js:177) or a non-numeric `:id` (tasks.js:173) answers 500. Neither is modelled: both ids are `nat`.
- AuthRoutes.Login: a body without `password` makes `bcrypt.compare` throw for a known email (auth.js:68-71), which answers 500. This is not modelled: the password is a string.
- TaskItem.AttachmentLabel: the link's URL prefix comes from the axios base URL. It is not modelled.
- AdminPage.HandleCreateUser and AdminPage.HandleRoleChange take the server's outcome as a parameter. server/routes/admin.js has no `POST /users` or `PUT /users/:id/role` route, so no server behaviour is modelled for them.
- The `creating`, `submitting` and `loading` flags, alerts, the list refresh after a create, and all rendering are not modelled.
- client/src/components/TaskFrom.jsx is not part of this model. It is an unused duplicate of TaskForm.jsx.
- AdminRoutes.GroupByStatus: the order of the grouped rows is not modelled. Distinct statuses make the fold independent of it.
- AdminRoutes.ListAllTasks: sorts before joining. The two orders give the same rows because the join does not change `created_at` or `task_id`.
- AdminTasksSection.ReplaceRow: a replaced row has no `assignee_name`, because `RETURNING *` does not carry one. The model shows this; it does not repair it.
- TaskForm.EditPayloadClearsAssignee: the update payload has no `assignee_id`, so the server stores NULL there. The update call lives in a page outside this model, so the lemma assumes the payload reaches the update handler unchanged as its body.
- TaskForm.CreateAgainSendsNoAssignee: assumes the `users` prop is unchanged after a create. The component that renders the form is not part of this model; a parent that refetched users would re-run the default-assignee effect.
- TaskForm.EditPayloadOf: the `requestMessage` field is never read by the update handler.

=== FILE: admin_page.dfy ===
/** The admin page (client/src/pages/AdminPage.jsx): who gets to see it,
    the create-user form, the role change on the users table and which rows
    offer it. */
module AdminPage {
  import opened Wrappers
  import opened Seqs
  import opened Text
  import opened Records
  import Middleware
  import AdminRoutes

  const ALL_FIELDS_REQUIRED_MESSAGE: string := "All fields are required."
  const CREATE_FAILED_MESSAGE: string := "Failed to create user."
  const CREATED_PREFIX: string := "User created successfully as "

  // ---------------------------------------------------------------------
  // Access
  // ---------------------------------------------------------------------

  /** What the page does for the logged-in user: render, or render nothing;
      and whether it navigates away and whether it loads the users. */
  datatype View = View(renders: bool, redirects: bool, fetchesUsers: bool)

  /** The redirect effect, the fetch effect and the early `return null`. A
      logged-in non-admin is sent away; nobody logged in just sees nothing. */
  function ViewFor(user: Option<Caller>): (v: View)
    ensures v.renders <==> Middleware.IsAdmin(user)
    ensures v.fetchesUsers <==> v.renders
    ensures v.redirects <==> user.Some? && !v.renders
    ensures v.redirects ==> !v.renders
  {
    var admin := user.Some? && user.value.role == ADMIN;
    View(admin, user.Some? && !admin, admin)
  }

  /** The page shows itself to exactly the callers the admin routes let through. */
  lemma PageMatchesServerGate(user: Option<Caller>)
    ensures ViewFor(user).renders <==> Middleware.VerifyAdmin(user).Next?
  {
  }

  // ---------------------------------------------------------------------
  // Create user
  // ---------------------------------------------------------------------

  /** The form's state hooks. */
  datatype CreateForm = CreateForm(
    username: string,
    email: string,
    password: string,
    role: string,
    createError: string,
    createSuccess: string)

  /** The initial state. */
  const FRESH_FORM: CreateForm := CreateForm("", "", "", ADMIN, "", "")

  /** The body of `POST /admin/users`. */
  datatype NewUser = NewUser(username: string, email: string, password: string, role: string)

  /** How the request ended: created, or refused with the server's message if any. */
  datatype CreateOutcome = Created | CreateRefused(serverMessage: Option<string>)

  /** The form after a submit, and the body sent if one was. */
  datatype CreateStep = CreateStep(form: CreateForm, sent: Option<NewUser>)

  /** The guard of `handleCreateUser`: every field has something besides white space. */
  predicate Complete(f: CreateForm) {
    !AllSpace(f.username) && !AllSpace(f.email) && !AllSpace(f.password)
  }

  /** The request body: trimmed name and email, the password as typed, the selected role. */
  function NewUserOf(f: CreateForm): (b: NewUser)
    ensures b.username == Trim(f.username) && b.email == Trim(f.email)
    ensures b.password == f.password && b.role == f.role
    ensures Complete(f) ==> b.username != "" && b.email != "" && b.password != ""
  {
    NewUser(Trim(f.username), Trim(f.email), f.password, f.role)
  }

  /** `handleCreateUser`. An incomplete form sends nothing and says so.
      Otherwise the body is sent; success clears the inputs, resets the role
      to `ADMIN` and names the role created; failure keeps the inputs and
      shows the server's message, or a fixed one when it gave none. */
  function HandleCreateUser(f: CreateForm, outcome: CreateOutcome): (r: CreateStep)
    ensures r.sent.None? <==> !Complete(f)
    ensures !Complete(f) ==> r.form == f.(createError := ALL_FIELDS_REQUIRED_MESSAGE, createSuccess := "")
    ensures r.sent.Some? ==> r.sent.value == NewUserOf(f)
    ensures r.sent.Some? && outcome.Created? ==>
      r.form == FRESH_FORM.(createSuccess := CREATED_PREFIX + f.role + ".")
    ensures r.sent.Some? && outcome.CreateRefused? ==>
      && r.form == f.(createError := r.form.createError, createSuccess := "")
      && r.form.createError != ""
      && (outcome.serverMessage.None? || outcome.serverMessage.value == "" ==> r.form.createError == CREATE_FAILED_MESSAGE)
      && (outcome.serverMessage.Some? && outcome.serverMessage.value != "" ==>
            r.form.createError == outcome.serverMessage.value)
  {
    var cleared := f.(createError := "", createSuccess := "");
    if !Complete(f) then CreateStep(cleared.(createError := ALL_FIELDS_REQUIRED_MESSAGE), None)
    else
      var body := NewUserOf(f);
      match outcome
      case Created =>
        CreateStep(cleared.(username := "", email := "", password := "", role := ADMIN,
                            createSuccess := CREATED_PREFIX + f.role + "."), Some(body))
      case CreateRefused(message) =>
        var shown := if message.None? || message.value == "" then CREATE_FAILED_MESSAGE else message.value;
        CreateStep(cleared.(createError := shown), Some(body))
  }

  /** A form left at its initial role sends `ADMIN`, and any complete
      submit that succeeds leaves the form ready for the next user. */
  lemma CreateDefaultsToAdmin(username: string, email: string, password: string)
    requires !AllSpace(username) && !AllSpace(email) && !AllSpace(password)
    ensures var f := FRESH_FORM.(username := username, email := email, password := password);
      && HandleCreateUser(f, Created).sent == Some(NewUser(Trim(username), Trim(email), password, ADMIN))
      && HandleCreateUser(f, Created).form.(createSuccess := "") == FRESH_FORM
  {
  }

  // ---------------------------------------------------------------------
  // Role change and the users table
  // ---------------------------------------------------------------------

  /** `users.map(u => u.user_id === userId ? { ...u, role: newRole } : u)`
      after a successful `PUT`; a failed one leaves the list. */
  function HandleRoleChange(users: seq<AdminRoutes.PublicUser>, userId: nat, newRole: string, ok: bool)
    : (r: seq<AdminRoutes.PublicUser>)
    ensures !ok ==> r == users
    ensures |r| == |users|
    ensures ok ==> forall k :: 0 <= k < |users| ==>
      r[k] == if users[k].userId == userId then users[k].(role := newRole) else users[k]
  {
    if !ok then users
    else MapWhere(users, (u: AdminRoutes.PublicUser) => u.userId == userId,
                  (u: AdminRoutes.PublicUser) => u.(role := newRole))
  }

  predicate DistinctUsers(users: seq<AdminRoutes.PublicUser>) {
    forall i, j :: 0 <= i < j < |users| ==> users[i].userId != users[j].userId
  }

  /** With distinct ids, a successful role change rewrites the role of
      exactly the one matching user, in place; an unknown id changes nothing. */
  lemma RoleChangeRewritesOneUser(users: seq<AdminRoutes.PublicUser>, userId: nat, newRole: string)
    requires DistinctUsers(users)
    ensures var r := HandleRoleChange(users, userId, newRole, true);
      && (forall k :: 0 <= k < |users| && users[k].userId == userId ==>
            r == users[k := users[k].(role := newRole)])
      && ((forall k :: 0 <= k < |users| ==> users[k].userId != userId) ==> r == users)
  {
    var p := (u: AdminRoutes.PublicUser) => u.userId == userId;
    var f := (u: AdminRoutes.PublicUser) => u.(role := newRole);
    forall k | 0 <= k < |users| && p(users[k])
      ensures MapWhere(users, p, f) == users[k := f(users[k])]
    {
      MapWhereAtOne(users, p, f, k);
    }
    if forall k :: 0 <= k < |users| ==> !p(users[k]) {
      MapWhereNone(users, p, f);
    }
  }

  /** A row offers the role selector unless it is the viewer's own, which
      shows "You" instead. */
  predicate ShowsRoleSelector(me: Caller, u: AdminRoutes.PublicUser) {
    u.userId != me.id
  }

  /** A role change can only start from a row that offers the selector, and
      none of those changes touches the viewer's own row: an admin cannot
      change their own role from this table. */
  lemma SelectorCannotChangeOwnRole(users: seq<AdminRoutes.PublicUser>, me: Caller, k: nat, newRole: string)
    requires k < |users| && ShowsRoleSelector(me, users[k])
    ensures var r := HandleRoleChange(users, users[k].userId, newRole, true);
      forall j :: 0 <= j < |users| && users[j].userId == me.id ==> r[j] == users[j]
  {
  }

  /** In a table with distinct ids at most one row, the viewer's own, goes
      without a selector, so an admin can never change their own role here. */
  lemma OnlyOwnRowLacksSelector(users: seq<AdminRoutes.PublicUser>, me: Caller)
    requires DistinctUsers(users)
    ensures forall i, j :: (0 <= i < |users| && 0 <= j < |users|
      && !ShowsRoleSelector(me, users[i]) && !ShowsRoleSelector(me, users[j])) ==> i == j
    ensures forall k :: 0 <= k < |users| && !ShowsRoleSelector(me, users[k]) ==> users[k].userId == me.id
  {
  }
}

=== FILE: admin_routes.dfy ===
/** The admin router (server/routes/admin.js): every route behind the token
    check and the ADMIN gate; dashboard statistics, the user listing without
    password hashes, and every task with its assignee's name. */
module AdminRoutes {
  import opened Wrappers
  import opened Ordering
  import opened Records
  import opened Middleware

  // ---------------------------------------------------------------------
  // GET /stats
  // ---------------------------------------------------------------------

  /** A row of `SELECT status, COUNT(*) FROM tasks GROUP BY status`. */
  datatype StatusCount = StatusCount(status: Option<string>, count: nat)

  /** The reply of `/stats`: the three buckets are fields, so they are
      always present. */
  datatype Stats = Stats(totalUsers: nat, totalTasks: nat, pending: nat, inProgress: nat, completed: nat)

  /** How many tasks carry exactly the status `s` (NULL included). */
  function CountStatus(tasks: seq<Task>, s: Option<string>): (n: nat)
    ensures n <= |tasks|
  {
    if |tasks| == 0 then 0
    else CountStatus(tasks[..|tasks| - 1], s) + (if tasks[|tasks| - 1].status == s then 1 else 0)
  }

  /** No two groups share a status. */
  predicate DistinctGroups(groups: seq<StatusCount>) {
    forall i, j :: 0 <= i < j < |groups| ==> groups[i].status != groups[j].status
  }

  /** The count of the group of status `s`, or 0 when there is no such group. */
  function GroupCount(groups: seq<StatusCount>, s: Option<string>): nat {
    if |groups| == 0 then 0
    else if groups[|groups| - 1].status == s then groups[|groups| - 1].count
    else GroupCount(groups[..|groups| - 1], s)
  }

  /** Counts one more task of status `s` into the groups. */
  function AddToGroups(groups: seq<StatusCount>, s: Option<string>): (r: seq<StatusCount>)
    requires DistinctGroups(groups)
    ensures DistinctGroups(r)
    ensures forall x :: GroupCount(r, x) == GroupCount(groups, x) + (if x == s then 1 else 0)
    ensures forall k :: 0 <= k < |r| ==> r[k].status == s || exists j :: 0 <= j < |groups| && groups[j].status == r[k].status
  {
    if |groups| == 0 then [StatusCount(s, 1)]
    else
      var last := groups[|groups| - 1];
      var init := groups[..|groups| - 1];
      assert groups == init + [last];
      if last.status == s then
        init + [StatusCount(s, last.count + 1)]
      else
        var rest := AddToGroups(init, s);
        assert forall k :: 0 <= k < |rest| ==> rest[k].status != last.status;
        rest + [last]
  }

  /** `GROUP BY status`: one group per distinct status, with its task count. */
  function GroupByStatus(tasks: seq<Task>): (r: seq<StatusCount>)
    ensures DistinctGroups(r)
    ensures forall s :: GroupCount(r, s) == CountStatus(tasks, s)
  {
    if |tasks| == 0 then []
    else AddToGroups(GroupByStatus(tasks[..|tasks| - 1]), tasks[|tasks| - 1].status)
  }

  /** The property name a status becomes: `statusCounts[row.status]` turns a
      NULL status into the key `"null"`. */
  function StatusKey(s: Option<string>): string {
    if s.None? then "null" else s.value
  }

  /** `tasksByStatus.rows.forEach(row => statusCounts[row.status] = count)`:
      later rows overwrite earlier ones under the same key. */
  function FoldCounts(rows: seq<StatusCount>): (r: map<string, nat>)
    ensures forall k :: 0 <= k < |rows| ==> StatusKey(rows[k].status) in r
    ensures forall key :: key in r ==>
      exists k :: 0 <= k < |rows| && StatusKey(rows[k].status) == key && r[key] == rows[k].count
  {
    if |rows| == 0 then map[]
    else FoldCounts(rows[..|rows| - 1])[StatusKey(rows[|rows| - 1].status) := rows[|rows| - 1].count]
  }

  /** `statusCounts[key] || 0`. */
  function Bucket(counts: map<string, nat>, key: string): (n: nat)
    ensures n == (if key in counts then counts[key] else 0)
  {
    if key in counts && counts[key] != 0 then counts[key] else 0
  }

  /** For a key other than `"null"`, only the group of that very status
      writes it, so the fold reads that group's count. */
  lemma {:induction false} FoldReadsGroup(rows: seq<StatusCount>, key: string)
    requires DistinctGroups(rows)
    requires key != "null"
    ensures Bucket(FoldCounts(rows), key) == GroupCount(rows, Some(key))
    decreases |rows|
  {
    if |rows| > 0 {
      var init := rows[..|rows| - 1];
      assert DistinctGroups(init);
      FoldReadsGroup(init, key);
      var last := rows[|rows| - 1];
      if last.status == Some(key) {
        assert StatusKey(last.status) == key;
      } else {
        assert StatusKey(last.status) != key;
      }
    }
  }

  /** The `/stats` handler on the two tables. */
  function StatsOf(tasks: seq<Task>, users: seq<User>): (r: Stats)
    ensures r.totalUsers == |users| && r.totalTasks == |tasks|
    ensures r.pending == CountStatus(tasks, Some(PENDING))
    ensures r.inProgress == CountStatus(tasks, Some(IN_PROGRESS))
    ensures r.completed == CountStatus(tasks, Some(COMPLETED))
  {
    var groups := GroupByStatus(tasks);
    var counts := FoldCounts(groups);
    FoldReadsGroup(groups, PENDING);
    FoldReadsGroup(groups, IN_PROGRESS);
    FoldReadsGroup(groups, COMPLETED);
    Stats(|users|, |tasks|, Bucket(counts, PENDING), Bucket(counts, IN_PROGRESS), Bucket(counts, COMPLETED))
  }

  /** A task in one of the three dashboard statuses. */
  predicate InBucket(t: Task) {
    t.status == Some(PENDING) || t.status == Some(IN_PROGRESS) || t.status == Some(COMPLETED)
  }

  /** The three buckets never exceed the total, and they add up to it exactly
      when no task has another status (NULL included). */
  lemma {:induction false} BucketsWithinTotal(tasks: seq<Task>)
    ensures var n := CountStatus(tasks, Some(PENDING)) + CountStatus(tasks, Some(IN_PROGRESS))
                     + CountStatus(tasks, Some(COMPLETED));
      && n <= |tasks|
      && (n == |tasks| <==> forall k :: 0 <= k < |tasks| ==> InBucket(tasks[k]))
    decreases |tasks|
  {
    if |tasks| > 0 {
      var init := tasks[..|tasks| - 1];
      BucketsWithinTotal(init);
      var n := CountStatus(init, Some(PENDING)) + CountStatus(init, Some(IN_PROGRESS))
               + CountStatus(init, Some(COMPLETED));
      if forall k :: 0 <= k < |tasks| ==> InBucket(tasks[k]) {
        assert forall k :: 0 <= k < |init| ==> InBucket(init[k]) by {
          forall k | 0 <= k < |init| ensures InBucket(init[k]) {
            assert init[k] == tasks[k];
          }
        }
      } else {
        var k :| 0 <= k < |tasks| && !InBucket(tasks[k]);
        if k < |init| {
          assert !InBucket(init[k]);
        }
      }
    }
  }

  /** `GET /stats` behind the admin gate. */
  function GetStats(header: Option<string>, verify: string -> Verified, tasks: seq<Task>, users: seq<User>): (r: Reply<Stats>)
    ensures r.Ok? <==> AdminGate(header, verify).Next?
    ensures r.Ok? ==> r.value.totalTasks == |tasks| && r.value.totalUsers == |users|
    ensures r.Ok? ==> r.value.pending + r.value.inProgress + r.value.completed <= r.value.totalTasks
    ensures r.Ok? ==> r.value == StatsOf(tasks, users)
    ensures r.Ok? ==>
      && r.value.pending == CountStatus(tasks, Some(PENDING))
      && r.value.inProgress == CountStatus(tasks, Some(IN_PROGRESS))
      && r.value.completed == CountStatus(tasks, Some(COMPLETED))
    ensures r.Fail? ==> r.code == 401 || r.code == 403
  {
    BucketsWithinTotal(tasks);
    Guarded(AdminGate(header, verify), Ok(StatsOf(tasks, users)))
  }

  // ---------------------------------------------------------------------
  // GET /users
  // ---------------------------------------------------------------------

  /** `SELECT user_id, username, email, role, created_at`: no password hash. */
  datatype PublicUser = PublicUser(userId: nat, username: string, email: string, role: string, createdAt: int)

  function Public(u: User): PublicUser {
    PublicUser(u.userId, u.username, u.email, u.role, u.createdAt)
  }

  function PublicStamp(u: PublicUser): Stamp {
    Stamp(u.createdAt, u.userId)
  }

  function PublicUsers(users: seq<User>): (r: seq<PublicUser>)
    ensures |r| == |users|
    ensures forall k :: 0 <= k < |users| ==> r[k] == Public(users[k])
  {
    seq(|users|, k requires 0 <= k < |users| => Public(users[k]))
  }

  /** The `/users` listing: every user once, projected, newest first. */
  function ListUsers(users: seq<User>): (r: seq<PublicUser>)
    ensures |r| == |users|
    ensures multiset(r) == multiset(PublicUsers(users))
    ensures NewestFirst(r, PublicStamp)
    ensures forall k :: 0 <= k < |r| ==> exists j :: 0 <= j < |users| && r[k] == Public(users[j])
  {
    var r := SortNewestFirst(PublicUsers(users), PublicStamp);
    assert forall k :: 0 <= k < |r| ==> r[k] in PublicUsers(users);
    r
  }

  /** `GET /users` behind the admin gate. */
  function GetUsers(header: Option<string>, verify: string -> Verified, users: seq<User>): (r: Reply<seq<PublicUser>>)
    ensures r.Ok? <==> AdminGate(header, verify).Next?
    ensures r.Ok? ==> |r.value| == |users| && NewestFirst(r.value, PublicStamp)
    ensures r.Ok? ==> r.value == ListUsers(users) && multiset(r.value) == multiset(PublicUsers(users))
    ensures r.Fail? ==> r.code == 401 || r.code == 403
  {
    Guarded(AdminGate(header, verify), Ok(ListUsers(users)))
  }

  // ---------------------------------------------------------------------
  // GET /tasks
  // ---------------------------------------------------------------------

  /** `u.username` of `LEFT JOIN users u ON t.assignee_id = u.user_id`:
      NULL when the task has no assignee or no user has that id. */
  function AssigneeName(t: Task, users: seq<User>): (r: Option<string>)
    ensures r.None? <==> t.assigneeId.None? || FindUser(users, t.assigneeId.value).None?
    ensures r.Some? ==> exists k :: 0 <= k < |users| && users[k].userId == t.assigneeId.value && users[k].username == r.value
  {
    if t.assigneeId.None? then None
    else match FindUser(users, t.assigneeId.value)
      case None => None
      case Some(u) => Some(u.username)
  }

  /** The left join: one row per task, in the order given. */
  function LeftJoin(tasks: seq<Task>, users: seq<User>): (r: seq<TaskRow>)
    ensures |r| == |tasks|
    ensures forall k :: 0 <= k < |tasks| ==> r[k] == TaskRow(tasks[k], AssigneeName(tasks[k], users))
  {
    seq(|tasks|, k requires 0 <= k < |tasks| => TaskRow(tasks[k], AssigneeName(tasks[k], users)))
  }

  /** The `/tasks` listing: every task exactly once, newest first, with its
      assignee's name when the assignee's row exists. */
  function ListAllTasks(tasks: seq<Task>, users: seq<User>): (r: seq<TaskRow>)
    ensures |r| == |tasks|
    ensures multiset(TasksOf(r)) == multiset(tasks)
    ensures NewestFirst(r, RowStamp)
    ensures forall k :: 0 <= k < |r| ==> r[k].assigneeName == AssigneeName(r[k].task, users)
  {
    var sorted := SortNewestFirst(tasks, TaskStamp);
    var r := LeftJoin(sorted, users);
    assert TasksOf(r) == sorted;
    r
  }

  /** `GET /tasks` behind the admin gate. */
  function GetAllTasks(header: Option<string>, verify: string -> Verified, tasks: seq<Task>, users: seq<User>): (r: Reply<seq<TaskRow>>)
    ensures r.Ok? <==> AdminGate(header, verify).Next?
    ensures r.Ok? ==> |r.value| == |tasks| && multiset(TasksOf(r.value)) == multiset(tasks)
    ensures r.Ok? ==> r.value == ListAllTasks(tasks, users) && NewestFirst(r.value, RowStamp)
    ensures r.Ok? ==> forall k :: 0 <= k < |r.value| ==> r.value[k].assigneeName == AssigneeName(r.value[k].task, users)
    ensures r.Fail? ==> r.code == 401 || r.code == 403
  {
    Guarded(AdminGate(header, verify), Ok(ListAllTasks(tasks, users)))
  }

  /** A task whose assignee has no user row still appears, with no name. */
  lemma OrphanTaskStillListed(tasks: seq<Task>, users: seq<User>, k: nat)
    requires k < |tasks|
    requires tasks[k].assigneeId.Some? && FindUser(users, tasks[k].assigneeId.value).None?
    ensures TaskRow(tasks[k], None) in ListAllTasks(tasks, users)
  {
    var r := ListAllTasks(tasks, users);
    assert tasks[k] in multiset(TasksOf(r));
    var j :| 0 <= j < |r| && TasksOf(r)[j] == tasks[k];
    assert r[j] == TaskRow(tasks[k], None);
  }
}

=== FILE: admin_tasks_section.dfy ===
/** The admin's table of all tasks (client/src/components/AdminTasksSection.jsx):
    the inline due-date editor, the update it sends and how the table takes
    the answer in. */
module AdminTasksSection {
  import opened Wrappers
  import opened Seqs
  import opened Records
  import TaskRoutes
  import TaskForm

  /** The component's state: the rows `/admin/tasks` returned, the task
      whose due date is being edited and the date input. */
  datatype Section = Section(rows: seq<TaskRow>, editingDueId: Option<nat>, dueInput: string)

  /** The pencil button: edit this task's due date, starting from the stored
      one or from nothing. The rows are not touched. */
  function HandleDueEdit(s: Section, task: Task): (r: Section)
    ensures r.rows == s.rows
    ensures r.editingDueId == Some(task.taskId)
    ensures r.dueInput == "" <==> task.dueDate.None? || task.dueDate.value == ""
    ensures r.dueInput != "" ==> task.dueDate == Some(r.dueInput)
  {
    s.(editingDueId := Some(task.taskId), dueInput := TaskForm.OrEmpty(task.dueDate))
  }

  /** The Cancel button: leave edit mode; rows and input stay as they are. */
  function CancelDueEdit(s: Section): (r: Section)
    ensures r.editingDueId.None?
    ensures r.rows == s.rows && r.dueInput == s.dueInput
  {
    s.(editingDueId := None)
  }

  /** The JSON body of the save: the row's own fields, the new date, and
      the request message or `''`. */
  datatype DueSaveBody = DueSaveBody(
    title: Option<string>,
    description: Option<string>,
    status: Option<string>,
    assigneeId: Option<nat>,
    dueDate: string,
    requestMessage: string)

  function SaveBody(task: Task, dueInput: string): (b: DueSaveBody)
    ensures b.title == task.title && b.description == task.description
    ensures b.status == task.status && b.assigneeId == task.assigneeId
    ensures b.dueDate == dueInput
    ensures b.requestMessage == "" <==> task.requestMessage.None? || task.requestMessage.value == ""
    ensures b.requestMessage != "" ==> task.requestMessage == Some(b.requestMessage)
  {
    DueSaveBody(task.title, task.description, task.status, task.assigneeId, dueInput,
                TaskForm.OrEmpty(task.requestMessage))
  }

  /** What the update handler reads of that body; it has no use for the
      request message. */
  function AsUpdate(b: DueSaveBody): TaskRoutes.UpdateBody {
    TaskRoutes.UpdateBody(b.title, b.description, b.status, Some(b.dueDate), b.assigneeId)
  }

  /** The save body copies the row back: applied to the row it was built
      from, it changes the due date and nothing else, and the request
      message it carries makes no difference to the update. */
  lemma SaveBodyKeepsOtherFields(task: Task, input: string, message: string)
    ensures TaskRoutes.Overwrite(task, AsUpdate(SaveBody(task, input))) == task.(dueDate := Some(input))
    ensures AsUpdate(SaveBody(task, input).(requestMessage := message)) == AsUpdate(SaveBody(task, input))
  {
  }

  /** How the `PUT` ended: the returned row, or an error. */
  datatype SaveOutcome = Saved(updated: Task) | SaveFailed

  /** The row the table shows for a returned task. `RETURNING *` carries no
      `assignee_name`, so the replacement has none. */
  function Returned(updated: Task): TaskRow {
    TaskRow(updated, None)
  }

  /** `prevTasks.map(t => t.task_id === updatedTask.task_id ? updatedTask : t)`. */
  function ReplaceRow(rows: seq<TaskRow>, updated: Task): (r: seq<TaskRow>)
    ensures |r| == |rows|
    ensures forall k :: 0 <= k < |rows| && rows[k].task.taskId == updated.taskId ==> r[k] == Returned(updated)
    ensures forall k :: 0 <= k < |rows| && rows[k].task.taskId != updated.taskId ==> r[k] == rows[k]
  {
    MapWhere(rows, (t: TaskRow) => t.task.taskId == updated.taskId, _ => Returned(updated))
  }

  /** The end of `handleDueSave`: on success the row of the returned task
      shows it and edit mode ends with an empty input; every row keeps its
      place and its task id, so no task appears twice that did not before.
      On failure nothing changes. */
  function HandleDueSave(s: Section, outcome: SaveOutcome): (r: Section)
    ensures outcome.SaveFailed? ==> r == s
    ensures outcome.Saved? ==> r.editingDueId.None? && r.dueInput == ""
    ensures |r.rows| == |s.rows|
    ensures forall k :: 0 <= k < |s.rows| ==> r.rows[k].task.taskId == s.rows[k].task.taskId
    ensures outcome.Saved? ==> forall k :: 0 <= k < |s.rows| ==>
      r.rows[k] == if s.rows[k].task.taskId == outcome.updated.taskId then Returned(outcome.updated) else s.rows[k]
    ensures DistinctRows(s.rows) ==> DistinctRows(r.rows)
  {
    match outcome
    case SaveFailed => s
    case Saved(updated) => Section(ReplaceRow(s.rows, updated), None, "")
  }

  /** No two rows of the table show the same task. */
  predicate DistinctRows(rows: seq<TaskRow>) {
    forall i, j :: 0 <= i < j < |rows| ==> rows[i].task.taskId != rows[j].task.taskId
  }

  /** With distinct task ids, a successful save replaces exactly the row of
      the returned task, in its place: length, order and every other row
      are kept, and a task not in the table leaves the table as it was. */
  lemma SaveReplacesOneRow(s: Section, updated: Task)
    requires DistinctRows(s.rows)
    ensures var r := HandleDueSave(s, Saved(updated));
      && (forall k :: 0 <= k < |s.rows| && s.rows[k].task.taskId == updated.taskId ==>
            r.rows == s.rows[k := Returned(updated)])
      && ((forall k :: 0 <= k < |s.rows| ==> s.rows[k].task.taskId != updated.taskId) ==> r.rows == s.rows)
  {
    var p := (t: TaskRow) => t.task.taskId == updated.taskId;
    var f := (_: TaskRow) => Returned(updated);
    forall k | 0 <= k < |s.rows| && p(s.rows[k])
      ensures MapWhere(s.rows, p, f) == s.rows[k := Returned(updated)]
    {
      MapWhereAtOne(s.rows, p, f, k);
    }
    if forall k :: 0 <= k < |s.rows| ==> !p(s.rows[k]) {
      MapWhereNone(s.rows, p, f);
    }
  }

  /** Saving a due date on the server, when it is allowed, changes the
      shown task's due date and nothing else: the body copies every other
      field back from the row itself. */
  lemma DueSaveChangesOnlyDueDate(tasks: seq<Task>, callerId: nat, shown: Task, input: string, isDate: string -> bool)
    requires UniqueTaskIds(tasks) && shown in tasks
    ensures var w := TaskRoutes.UpdateTask(tasks, callerId, shown.taskId, AsUpdate(SaveBody(shown, input)), isDate);
      w.reply.Ok? ==> w.reply.value == shown.(dueDate := Some(input))
  {
    var body := AsUpdate(SaveBody(shown, input));
    var w := TaskRoutes.UpdateTask(tasks, callerId, shown.taskId, body, isDate);
    if w.reply.Ok? {
      var k :| 0 <= k < |tasks| && TaskRoutes.Owned(tasks[k], shown.taskId, callerId)
        && TaskRoutes.UpdatedFrom(w.reply.value, tasks[k], body);
      var j :| 0 <= j < |tasks| && tasks[j] == shown;
      assert tasks[k].taskId == tasks[j].taskId;
      assert k == j;
    }
  }

  /** The update handler has no admin exception: an admin saving a date the
      database accepts on a task assigned to someone else gets 404, and the
      table is unchanged. */
  lemma AdminSaveOfOthersTaskIsRefused(tasks: seq<Task>, admin: Caller, shown: Task, input: string, isDate: string -> bool)
    requires admin.role == ADMIN
    requires UniqueTaskIds(tasks) && shown in tasks
    requires shown.assigneeId != Some(admin.id)
    requires TaskRoutes.DateAccepted(isDate, Some(input))
    ensures var w := TaskRoutes.UpdateTask(tasks, admin.id, shown.taskId, AsUpdate(SaveBody(shown, input)), isDate);
      w.reply == Fail(404, TaskRoutes.NOT_FOUND_MESSAGE) && w.tasks == tasks
  {
    var j :| 0 <= j < |tasks| && tasks[j] == shown;
    forall k | 0 <= k < |tasks|
      ensures !TaskRoutes.Owned(tasks[k], shown.taskId, admin.id)
    {
      if tasks[k].taskId == shown.taskId {
        assert k == j;
      }
    }
  }

  /** Opening the editor on a task without a due date and saving at once
      sends `''`, which the `DATE` column refuses: whoever saves, the answer
      is 500, the server's table and the shown rows stay as they were. */
  lemma SavingEmptyDueDateFails(s: Section, tasks: seq<Task>, callerId: nat, task: Task, isDate: string -> bool)
    requires task.dueDate.None? || task.dueDate.value == ""
    ensures var editor := HandleDueEdit(s, task);
      var w := TaskRoutes.UpdateTask(tasks, callerId, task.taskId, AsUpdate(SaveBody(task, editor.dueInput)), isDate);
      && w.reply == Fail(500, TaskRoutes.SERVER_ERROR_MESSAGE) && w.tasks == tasks
      && HandleDueSave(editor, SaveFailed) == editor
  {
  }
}

=== FILE: auth_routes.dfy ===
/** Registration and login (server/routes/auth.js) over the `users` table.
    Password hashing, password comparison and token signing are oracles
    handed in by the caller; the salt and the insert time are parameters. */
module AuthRoutes {
  import opened Wrappers
  import opened Records

  const DUPLICATE_EMAIL_MESSAGE: string := "User with this email already exists."
  const INVALID_CREDENTIALS_MESSAGE: string := "Invalid credentials."

  /** A handler's reply together with the `users` table it leaves behind. */
  datatype Stored<T> = Stored(reply: Reply<T>, users: seq<User>)

  datatype RegisterBody = RegisterBody(username: string, email: string, password: string)

  datatype LoginBody = LoginBody(email: string, password: string)

  /** The `user` object of a login reply: the row without its password hash. */
  datatype Profile = Profile(id: nat, username: string, email: string, role: string)

  datatype Session = Session(token: string, user: Profile)

  /** No two users share an email. */
  predicate UniqueEmails(users: seq<User>) {
    forall i, j :: 0 <= i < j < |users| ==> users[i].email != users[j].email
  }

  /** `SELECT * FROM users WHERE email = $1` and its first row. */
  function FindByEmail(users: seq<User>, email: string): (r: Option<User>)
    ensures r.Some? ==> r.value in users && r.value.email == email
    ensures r.None? <==> forall k :: 0 <= k < |users| ==> users[k].email != email
    ensures r.Some? ==> exists k :: (0 <= k < |users| && users[k] == r.value
      && forall j :: 0 <= j < k ==> users[j].email != email)
  {
    if |users| == 0 then None
    else if users[0].email == email then Some(users[0])
    else
      var rest := FindByEmail(users[1..], email);
      assert rest.Some? ==> exists k :: (1 <= k < |users| && users[k] == rest.value
        && forall j :: 1 <= j < k ==> users[j].email != email);
      rest
  }

  /** The register handler: 409 and no insert when the email is taken;
      otherwise one new row with the role `USER` whatever the body says, the
      hashed password in place of the plain one, and a token signed over the
      inserted row's id and role. */
  function Register(users: seq<User>, body: RegisterBody, salt: string,
                    hash: (string, string) -> string, sign: Caller -> string, now: int): (w: Stored<string>)
    ensures FindByEmail(users, body.email).Some? <==> w.reply.Fail?
    ensures w.reply.Fail? ==> w.reply == Fail(409, DUPLICATE_EMAIL_MESSAGE) && w.users == users
    ensures w.reply.Ok? ==>
      && |w.users| == |users| + 1
      && w.users[..|users|] == users
      && var row := w.users[|users|];
      && row.username == body.username && row.email == body.email
      && row.passwordHash == hash(body.password, salt)
      && row.role == USER
      && row.createdAt == now
      && (forall k :: 0 <= k < |users| ==> users[k].userId != row.userId)
      && w.reply.value == sign(Caller(row.userId, row.role))
    ensures UniqueEmails(users) ==> UniqueEmails(w.users)
    ensures UniqueUserIds(users) ==> UniqueUserIds(w.users)
  {
    if FindByEmail(users, body.email).Some? then Stored(Fail(409, DUPLICATE_EMAIL_MESSAGE), users)
    else
      var row := User(NextUserId(users), body.username, body.email, hash(body.password, salt), USER, now);
      assert (users + [row])[..|users|] == users;
      Stored(Ok(sign(Caller(row.userId, row.role))), users + [row])
  }

  /** The login handler. Both failures, an unknown email and a wrong
      password, give the very same reply; success returns the token for the
      row's id and role and the row without its hash. It does not write. */
  function Login(users: seq<User>, body: LoginBody,
                 check: (string, string) -> bool, sign: Caller -> string): (r: Reply<Session>)
    ensures FindByEmail(users, body.email).None? ==> r == Fail(401, INVALID_CREDENTIALS_MESSAGE)
    ensures FindByEmail(users, body.email).Some? && !check(body.password, FindByEmail(users, body.email).value.passwordHash)
      ==> r == Fail(401, INVALID_CREDENTIALS_MESSAGE)
    ensures r.Fail? ==> r == Fail(401, INVALID_CREDENTIALS_MESSAGE)
    ensures r.Ok? ==>
      && FindByEmail(users, body.email).Some?
      && var u := FindByEmail(users, body.email).value;
      && check(body.password, u.passwordHash)
      && r.value.user == Profile(u.userId, u.username, u.email, u.role)
      && r.value.token == sign(Caller(u.userId, u.role))
  {
    match FindByEmail(users, body.email)
    case None => Fail(401, INVALID_CREDENTIALS_MESSAGE)
    case Some(u) =>
      if !check(body.password, u.passwordHash) then Fail(401, INVALID_CREDENTIALS_MESSAGE)
      else Ok(Session(sign(Caller(u.userId, u.role)), Profile(u.userId, u.username, u.email, u.role)))
  }

  /** Registering and then logging in with the same email and password
      succeeds as the new user, with the role `USER`, provided the password
      check accepts a password against its own hash. */
  lemma RegisterThenLogin(users: seq<User>, body: RegisterBody, salt: string,
                          hash: (string, string) -> string, check: (string, string) -> bool,
                          sign: Caller -> string, now: int)
    requires check(body.password, hash(body.password, salt))
    requires FindByEmail(users, body.email).None?
    ensures var w := Register(users, body, salt, hash, sign, now);
      && w.reply.Ok?
      && var r := Login(w.users, LoginBody(body.email, body.password), check, sign);
      && r.Ok?
      && r.value.user == Profile(w.users[|users|].userId, body.username, body.email, USER)
      && r.value.token == w.reply.value
  {
    var w := Register(users, body, salt, hash, sign, now);
    var row := w.users[|users|];
    FirstEmailAfter(users, row);
  }

  /** Looking an email up in a table grown by one row, when no earlier row has the email, finds that row. */
  lemma {:induction false} FirstEmailAfter(users: seq<User>, row: User)
    requires FindByEmail(users, row.email).None?
    ensures FindByEmail(users + [row], row.email) == Some(row)
    decreases |users|
  {
    if |users| > 0 {
      assert (users + [row])[1..] == users[1..] + [row];
      FirstEmailAfter(users[1..], row);
    }
  }
}

=== FILE: middleware.dfy ===
/** The two request guards: the token check every protected route runs
    (server/middleware/verifyToken.js) and the ADMIN gate the admin router
    runs after it (server/middleware/verifyAdmin.js). Signature checking is
    an oracle handed in by the caller. */
module Middleware {
  import opened Wrappers
  import opened Records

  const NO_TOKEN_MESSAGE: string := "No token, authorization denied."
  const BAD_TOKEN_MESSAGE: string := "Token is not valid."
  const ADMIN_ONLY_MESSAGE: string := "Access denied. Admin role required."

  /** What a guard does with a request: passes it on with `req.user` set, or answers it. */
  datatype Outcome = Next(user: Option<Caller>) | Deny(code: int, message: string)

  /** What `jwt.verify` makes of a token: the `user` claim of a good token
      (absent when the payload has none), or a rejection. */
  datatype Verified = Valid(user: Option<Caller>) | Invalid

  /** `verifyToken`: the `x-auth-token` header, checked by `verify`. */
  function VerifyToken(header: Option<string>, verify: string -> Verified): (r: Outcome)
    ensures header.None? || header.value == "" ==> r == Deny(401, NO_TOKEN_MESSAGE)
    ensures header.Some? && header.value != "" && verify(header.value).Invalid? ==> r == Deny(401, BAD_TOKEN_MESSAGE)
    ensures r.Next? <==> header.Some? && header.value != "" && verify(header.value).Valid?
    ensures r.Next? ==> r.user == verify(header.value).user
  {
    if header.None? || header.value == "" then Deny(401, NO_TOKEN_MESSAGE)
    else
      match verify(header.value)
      case Invalid => Deny(401, BAD_TOKEN_MESSAGE)
      case Valid(user) => Next(user)
  }

  predicate IsAdmin(user: Option<Caller>) {
    user.Some? && user.value.role == ADMIN
  }

  /** `verifyAdmin`: passes the request on exactly when `req.user` is present
      with the role `ADMIN`, spelled exactly so; every other request, a
      missing user included, gets 403 and is not passed on. */
  function VerifyAdmin(user: Option<Caller>): (r: Outcome)
    ensures r.Next? <==> IsAdmin(user)
    ensures r.Next? ==> r.user == user
    ensures r.Deny? ==> r == Deny(403, ADMIN_ONLY_MESSAGE)
    ensures user.None? ==> r.Deny? && r.code == 403
  {
    if user.None? || user.value.role != ADMIN then Deny(403, ADMIN_ONLY_MESSAGE)
    else Next(user)
  }

  /** The admin router's `router.use(verifyToken); router.use(verifyAdmin)`:
      the token check first, the gate on its result. */
  function AdminGate(header: Option<string>, verify: string -> Verified): (r: Outcome)
    ensures r.Next? <==>
      && header.Some? && header.value != ""
      && verify(header.value).Valid? && IsAdmin(verify(header.value).user)
    ensures r.Next? ==> r.user == verify(header.value).user
    ensures r.Deny? && r.code == 401 <==> VerifyToken(header, verify).Deny?
    ensures r.Deny? && r.code == 403 <==> VerifyToken(header, verify).Next? && !IsAdmin(verify(header.value).user)
    ensures r.Deny? ==> r.code == 401 || r.code == 403
  {
    match VerifyToken(header, verify)
    case Deny(code, message) => Deny(code, message)
    case Next(user) => VerifyAdmin(user)
  }

  /** The reply of a route behind `gate`: the guard's answer when it stops
      the request, the handler's reply for the caller otherwise. */
  function Guarded<T>(gate: Outcome, handler: Reply<T>): Reply<T> {
    match gate
    case Deny(code, message) => Fail(code, message)
    case Next(_) => handler
  }

  /** Behind the admin router's two guards a handler's reply reaches exactly
      the callers whose token is valid and whose user claim has the role
      `ADMIN`; every other caller gets one of the guards' own 401 or 403
      answers, whatever the handler would have said. */
  lemma GuardedByAdminGate<T>(header: Option<string>, verify: string -> Verified, handler: Reply<T>)
    ensures var admitted := header.Some? && header.value != "" && verify(header.value).Valid?
                            && IsAdmin(verify(header.value).user);
      var r := Guarded(AdminGate(header, verify), handler);
      && (admitted ==> r == handler)
      && (!admitted ==> r.Fail? && (r.code == 401 || r.code == 403)
                        && r.message in {NO_TOKEN_MESSAGE, BAD_TOKEN_MESSAGE, ADMIN_ONLY_MESSAGE})
  {
  }

  /** A lower-case `admin` role is refused like any other non-`ADMIN` role. */
  lemma RoleMatchIsExact(id: nat)
    ensures VerifyAdmin(Some(Caller(id, "admin"))) == Deny(403, ADMIN_ONLY_MESSAGE)
    ensures VerifyAdmin(Some(Caller(id, USER))) == Deny(403, ADMIN_ONLY_MESSAGE)
    ensures VerifyAdmin(Some(Caller(id, ADMIN))) == Next(Some(Caller(id, ADMIN)))
  {
  }
}

=== FILE: ordering.dfy ===
/** `ORDER BY created_at DESC`, the order of every listing in the
    application. Rows with equal `created_at` are left in an unspecified
    order by the database; this model breaks such ties by the row id,
    larger first, so that the order is total. */
module Ordering {

  /** Sort key of a row: its creation time and its id. */
  datatype Stamp = Stamp(at: int, id: int)

  /** `a` sorts no later than `b` in newest-first order. */
  predicate NotOlder(a: Stamp, b: Stamp) {
    a.at > b.at || (a.at == b.at && a.id >= b.id)
  }

  predicate NewestFirst<T>(s: seq<T>, key: T -> Stamp) {
    forall i, j :: 0 <= i < j < |s| ==> NotOlder(key(s[i]), key(s[j]))
  }

  /** Puts `x` into the newest-first sequence `s` at its place. */
  function Insert<T>(x: T, s: seq<T>, key: T -> Stamp): (r: seq<T>)
    requires NewestFirst(s, key)
    ensures NewestFirst(r, key)
    ensures multiset(r) == multiset(s) + multiset{x}
    ensures |r| == |s| + 1
    ensures forall k :: 0 <= k < |r| ==> r[k] == x || r[k] in s
  {
    if |s| == 0 then [x]
    else if NotOlder(key(x), key(s[0])) then [x] + s
    else
      var rest := Insert(x, s[1..], key);
      assert s == [s[0]] + s[1..];
      assert forall k :: 0 <= k < |rest| ==> NotOlder(key(s[0]), key(rest[k]));
      ConsNewestFirst(s[0], rest, key);
      [s[0]] + rest
  }

  /** A row no older than any of a newest-first sequence can go in front of it. */
  lemma ConsNewestFirst<T>(h: T, s: seq<T>, key: T -> Stamp)
    requires NewestFirst(s, key)
    requires forall k :: 0 <= k < |s| ==> NotOlder(key(h), key(s[k]))
    ensures NewestFirst([h] + s, key)
  {
  }

  /** The rows of `s` in newest-first order. */
  function SortNewestFirst<T>(s: seq<T>, key: T -> Stamp): (r: seq<T>)
    ensures NewestFirst(r, key)
    ensures multiset(r) == multiset(s)
    ensures |r| == |s|
    ensures forall k :: 0 <= k < |r| ==> r[k] in s
  {
    if |s| == 0 then []
    else
      assert s == s[..|s| - 1] + [s[|s| - 1]];
      Insert(s[|s| - 1], SortNewestFirst(s[..|s| - 1], key), key)
  }
}

=== FILE: paging.dfy ===
/** `LIMIT`/`OFFSET` paging and the page count `Math.ceil(total / limit)`
    of the task listing (server/routes/tasks.js:101-118). */
module Paging {

  function Min(a: int, b: int): int {
    if a <= b then a else b
  }

  function Max(a: int, b: int): int {
    if a >= b then a else b
  }

  /** The product `a * b` as repeated addition, so that proofs about pages
      reason by induction instead of by non-linear arithmetic. */
  function Times(a: nat, b: nat): nat {
    if a == 0 then 0 else Times(a - 1, b) + b
  }

  lemma {:induction false} TimesIsProduct(a: nat, b: nat)
    ensures Times(a, b) == a * b
  {
    if a > 0 {
      TimesIsProduct(a - 1, b);
      assert (a - 1) * b + b == a * b;
    }
  }

  /** A product of naturals is zero exactly when a factor is. */
  lemma {:induction false} TimesZero(a: nat, b: nat)
    ensures Times(a, b) == 0 <==> a == 0 || b == 0
  {
    if a > 0 {
      TimesZero(a - 1, b);
    }
  }

  lemma {:induction false} TimesGrows(a: nat, c: nat, b: nat)
    requires a <= c
    ensures Times(a, b) <= Times(c, b)
    decreases c
  {
    if a < c {
      TimesGrows(a, c - 1, b);
    }
  }

  /** `LIMIT limit OFFSET offset` applied to the ordered rows `s`. */
  function Window<T>(s: seq<T>, limit: nat, offset: nat): (r: seq<T>)
    ensures |r| == Min(limit, Max(0, |s| - offset))
    ensures forall k :: 0 <= k < |r| ==> r[k] == s[offset + k]
  {
    if offset >= |s| then [] else s[offset..Min(offset + limit, |s|)]
  }

  /** `Math.ceil(n / d)` for a non-negative `n` and a positive `d`: the
      fewest pages of `d` rows that hold `n` rows. */
  function CeilDiv(n: nat, d: nat): (q: nat)
    requires d > 0
    ensures Times(q, d) >= n
    ensures q > 0 ==> Times(q - 1, d) < n
    decreases n
  {
    if n == 0 then 0 else if n <= d then 1 else 1 + CeilDiv(n - d, d)
  }

  /** The 1-based `page` of `s`, `limit` rows per page. */
  function Page<T>(s: seq<T>, page: nat, limit: nat): seq<T>
    requires page >= 1
  {
    Window(s, limit, Times(page - 1, limit))
  }

  /** Pages 1 to `k`, one after the other. */
  function FirstPages<T>(s: seq<T>, k: nat, limit: nat): seq<T> {
    if k == 0 then [] else FirstPages(s, k - 1, limit) + Page(s, k, limit)
  }

  lemma {:induction false} FirstPagesArePrefix<T>(s: seq<T>, k: nat, limit: nat)
    requires limit > 0
    ensures FirstPages(s, k, limit) == s[..Min(Times(k, limit), |s|)]
  {
    if k > 0 {
      FirstPagesArePrefix(s, k - 1, limit);
      var a := Min(Times(k - 1, limit), |s|);
      var b := Min(Times(k, limit), |s|);
      assert s[..b] == s[..a] + s[a..b];
    }
  }

  /** Reading the pages from 1 to `CeilDiv(|s|, limit)` yields every row of `s` once, in order. */
  lemma AllPagesCoverAll<T>(s: seq<T>, limit: nat)
    requires limit > 0
    ensures FirstPages(s, CeilDiv(|s|, limit), limit) == s
  {
    FirstPagesArePrefix(s, CeilDiv(|s|, limit), limit);
  }

  /** Pages up to the last one are non-empty; pages after it are empty. */
  lemma PageEmptyExactlyPastLast<T>(s: seq<T>, page: nat, limit: nat)
    requires page >= 1 && limit > 0
    ensures |Page(s, page, limit)| == 0 <==> page > CeilDiv(|s|, limit)
  {
    var q := CeilDiv(|s|, limit);
    if page > q {
      TimesGrows(q, page - 1, limit);
    } else {
      TimesGrows(page - 1, q - 1, limit);
    }
  }
}

=== FILE: pattern.dfy ===
/** PostgreSQL's `LIKE` and `ILIKE` pattern match, the operator behind the
    title search of the task listing (server/routes/tasks.js:92-96). */
module Pattern {
  import opened Text

  /** `s LIKE p`: `%` matches any run of characters, `_` exactly one, a
      backslash makes the next pattern character literal, anything else
      matches itself. */
  function Like(s: string, p: string): bool
    decreases |s| + |p|
  {
    if |p| == 0 then |s| == 0
    else if p[0] == '%' then Like(s, p[1..]) || (|s| > 0 && Like(s[1..], p))
    else if p[0] == '\\' then |p| >= 2 && |s| > 0 && s[0] == p[1] && Like(s[1..], p[2..])
    else |s| > 0 && (p[0] == '_' || s[0] == p[0]) && Like(s[1..], p[1..])
  }

  /** `s ILIKE p`, with ASCII case folding. */
  function ILike(s: string, p: string): bool {
    Like(Lower(s), Lower(p))
  }

  /** Without `%` and backslash every pattern character stands for exactly
      one character, so a match has the pattern's length. */
  lemma {:induction false} FixedLengthPattern(s: string, p: string)
    requires '%' !in p && '\\' !in p
    ensures Like(s, p) ==> |s| == |p|
    decreases |p|
  {
    if |p| > 0 && |s| > 0 {
      assert '%' !in p[1..] && '\\' !in p[1..] by {
        assert forall c :: c in p[1..] ==> c in p;
      }
      FixedLengthPattern(s[1..], p[1..]);
    }
  }

  /** `ILIKE` does not see the ASCII case of either side. */
  lemma ILikeIgnoresCase(s: string, p: string)
    ensures ILike(s, p) == ILike(Lower(s), p) == ILike(s, Lower(p))
  {
    LowerTwice(s);
    LowerTwice(p);
  }

  /** A search term with no character that `LIKE` treats specially. */
  predicate Plain(q: string) {
    '%' !in q && '_' !in q && '\\' !in q
  }

  /** The wrapped search pattern `%search%` built by the listing. */
  function Contains(search: string): (p: string)
    ensures |p| == |search| + 2 && p[0] == '%' && p[|p| - 1] == '%'
    ensures p[1..|p| - 1] == search
  {
    "%" + search + "%"
  }

  lemma {:induction false} PercentMatchesAll(s: string)
    ensures Like(s, "%")
    decreases |s|
  {
    if |s| > 0 {
      PercentMatchesAll(s[1..]);
    }
  }

  /** For a plain `q`, `s LIKE q%` holds exactly when `q` is a prefix of `s`. */
  lemma {:induction false} PrefixPattern(s: string, q: string)
    requires Plain(q)
    ensures Like(s, q + "%") <==> |q| <= |s| && s[..|q|] == q
    decreases |q|
  {
    if |q| == 0 {
      assert q + "%" == "%";
      PercentMatchesAll(s);
    } else {
      assert (q + "%")[1..] == q[1..] + "%";
      assert Plain(q[1..]) by {
        assert forall c :: c in q[1..] ==> c in q;
      }
      if |s| > 0 {
        PrefixPattern(s[1..], q[1..]);
        if |q| <= |s| && s[..|q|] == q {
          assert s[1..][..|q[1..]|] == q[1..];
        }
        if |q| <= |s| && s[0] == q[0] && s[1..][..|q| - 1] == q[1..] {
          assert s[..|q|] == [s[0]] + s[1..][..|q| - 1];
        }
      }
    }
  }

  /** A leading `%` lets the rest of the pattern match any suffix of `s`. */
  lemma {:induction false} LeadingPercent(s: string, r: string)
    ensures Like(s, "%" + r) <==> exists k :: 0 <= k <= |s| && Like(s[k..], r)
    decreases |s|
  {
    assert ("%" + r)[1..] == r;
    assert s[0..] == s;
    if |s| > 0 {
      assert Like(s, "%" + r) == (Like(s, r) || Like(s[1..], "%" + r));
      LeadingPercent(s[1..], r);
      if exists k :: 0 <= k <= |s| && Like(s[k..], r) {
        var k :| 0 <= k <= |s| && Like(s[k..], r);
        if k > 0 {
          assert s[1..][k - 1..] == s[k..];
        }
      }
      if exists k :: 0 <= k <= |s[1..]| && Like(s[1..][k..], r) {
        var k :| 0 <= k <= |s[1..]| && Like(s[1..][k..], r);
        assert s[1..][k..] == s[k + 1..];
        assert Like(s[k + 1..], r);
      }
    }
  }

  /** `s LIKE '%q%'` is a substring test for a plain `q`. */
  lemma ContainsIsSubstring(s: string, q: string)
    requires Plain(q)
    ensures Like(s, Contains(q)) <==> IsSubstring(q, s)
  {
    assert Contains(q) == "%" + (q + "%");
    LeadingPercent(s, q + "%");
    forall k | 0 <= k <= |s|
      ensures Like(s[k..], q + "%") <==> OccursAt(q, s, k)
    {
      PrefixPattern(s[k..], q);
      if |q| <= |s| - k {
        assert s[k..][..|q|] == s[k..k + |q|];
      }
    }
  }

  /** The title search of the listing: for a search term with no `%`, `_`
      or backslash, `title ILIKE '%search%'` holds exactly when the
      lower-cased term occurs in the lower-cased title. */
  lemma SearchIsCaseInsensitiveSubstring(title: string, search: string)
    requires Plain(search)
    ensures ILike(title, Contains(search)) <==> IsSubstring(Lower(search), Lower(title))
  {
    LowerAppend("%" + search, "%");
    LowerAppend("%", search);
    assert Lower(Contains(search)) == Contains(Lower(search));
    assert Plain(Lower(search)) by {
      forall k | 0 <= k < |search|
        ensures Lower(search)[k] != '%' && Lower(search)[k] != '_' && Lower(search)[k] != '\\'
      {
        assert search[k] in search;
      }
    }
    ContainsIsSubstring(Lower(title), Lower(search));
  }
}

=== FILE: records.dfy ===
/** The two tables of the store, the caller identity the token middleware
    hands to every protected handler, and the shape of an HTTP reply. */
module Records {
  import opened Wrappers
  import opened Ordering

  const ADMIN: string := "ADMIN"
  const USER: string := "USER"

  const PENDING: string := "Pending"
  const IN_PROGRESS: string := "In Progress"
  const COMPLETED: string := "Completed"

  /** A row of `tasks`. Nullable columns are options; `due_date` is the raw
      `YYYY-MM-DD` text the database driver is told to hand back unparsed
      (server/db.js:11-13). */
  datatype Task = Task(
    taskId: nat,
    title: Option<string>,
    description: Option<string>,
    status: Option<string>,
    dueDate: Option<string>,
    assigneeId: Option<nat>,
    filePath: Option<string>,
    requestMessage: Option<string>,
    createdAt: int)

  /** A row of `users`. */
  datatype User = User(
    userId: nat,
    username: string,
    email: string,
    passwordHash: string,
    role: string,
    createdAt: int)

  /** `req.user`: the `{id, role}` claims of a verified token. */
  datatype Caller = Caller(id: nat, role: string)

  /** `SELECT t.*, u.username AS assignee_name`: a task with its assignee's name. */
  datatype TaskRow = TaskRow(task: Task, assigneeName: Option<string>)

  /** The tasks of a sequence of rows, row by row. */
  function TasksOf(rows: seq<TaskRow>): (r: seq<Task>)
    ensures |r| == |rows|
    ensures forall k :: 0 <= k < |rows| ==> r[k] == rows[k].task
  {
    seq(|rows|, k requires 0 <= k < |rows| => rows[k].task)
  }

  lemma TasksOfCons(row: TaskRow, rows: seq<TaskRow>)
    ensures TasksOf([row] + rows) == [row.task] + TasksOf(rows)
  {
    var a := TasksOf([row] + rows);
    var b := [row.task] + TasksOf(rows);
    forall k | 0 <= k < |a|
      ensures a[k] == b[k]
    {
      if k > 0 {
        assert ([row] + rows)[k] == rows[k - 1];
      }
    }
  }

  /** What a handler sends: a JSON body, or a status code with a message. */
  datatype Reply<T> = Ok(value: T) | Fail(code: int, message: string)

  function TaskStamp(t: Task): Stamp {
    Stamp(t.createdAt, t.taskId)
  }

  function RowStamp(r: TaskRow): Stamp {
    TaskStamp(r.task)
  }

  /** `task_id` is the primary key of `tasks`. */
  predicate UniqueTaskIds(tasks: seq<Task>) {
    forall i, j :: 0 <= i < j < |tasks| ==> tasks[i].taskId != tasks[j].taskId
  }

  /** `user_id` is the primary key of `users`. */
  predicate UniqueUserIds(users: seq<User>) {
    forall i, j :: 0 <= i < j < |users| ==> users[i].userId != users[j].userId
  }

  /** The user row with id `id`, as an equi-join on `user_id` finds it. */
  function FindUser(users: seq<User>, id: nat): (r: Option<User>)
    ensures r.Some? ==> r.value in users && r.value.userId == id
    ensures r.None? <==> forall k :: 0 <= k < |users| ==> users[k].userId != id
  {
    if |users| == 0 then None
    else if users[0].userId == id then Some(users[0])
    else FindUser(users[1..], id)
  }

  /** The id a serial column hands out next: larger than every id in use. */
  function NextTaskId(tasks: seq<Task>): (id: nat)
    ensures id > 0
    ensures forall k :: 0 <= k < |tasks| ==> tasks[k].taskId < id
  {
    if |tasks| == 0 then 1
    else
      var rest := NextTaskId(tasks[1..]);
      if tasks[0].taskId < rest then rest else tasks[0].taskId + 1
  }

  function NextUserId(users: seq<User>): (id: nat)
    ensures id > 0
    ensures forall k :: 0 <= k < |users| ==> users[k].userId < id
  {
    if |users| == 0 then 1
    else
      var rest := NextUserId(users[1..]);
      if users[0].userId < rest then rest else users[0].userId + 1
  }
}

=== FILE: seqs.dfy ===
/** Order-preserving selection and in-place rewriting of a sequence: the
    `WHERE` of a query, and the `filter` and `map` of the client. */
module Seqs {

  /** `a` is `b` with some of its elements left out and the rest kept in order. */
  predicate Subsequence<T(==)>(a: seq<T>, b: seq<T>)
    decreases |b|
  {
    |a| == 0 || (|b| > 0 && ((a[0] == b[0] && Subsequence(a[1..], b[1..])) || Subsequence(a, b[1..])))
  }

  /** `r` holds every occurrence in `s` of an element `p` picks, and nothing else. */
  ghost predicate Selects<T(!new)>(r: seq<T>, s: seq<T>, p: T -> bool) {
    forall x :: multiset(r)[x] == if p(x) then multiset(s)[x] else 0
  }

  /** One step of a filter: deciding on the head and keeping the filtered tail. */
  lemma SelectStep<T(!new)>(s: seq<T>, p: T -> bool, rest: seq<T>)
    requires |s| > 0 && Subsequence(rest, s[1..]) && Selects(rest, s[1..], p)
    ensures var r := (if p(s[0]) then [s[0]] else []) + rest;
      Subsequence(r, s) && Selects(r, s, p)
  {
    assert s == [s[0]] + s[1..];
    if p(s[0]) {
      assert ([s[0]] + rest)[1..] == rest;
    } else {
      assert [] + rest == rest;
    }
  }

  /** `s.filter(p)`, and a `WHERE` that keeps rows in table order: the
      elements `p` picks, each as often as in `s`, in their order in `s`. */
  function Filter<T(==,!new)>(s: seq<T>, p: T -> bool): (r: seq<T>)
    ensures |r| <= |s|
    ensures forall k :: 0 <= k < |r| ==> r[k] in s && p(r[k])
    ensures forall k :: 0 <= k < |s| && p(s[k]) ==> s[k] in r
    ensures (forall k :: 0 <= k < |s| ==> !p(s[k])) ==> r == []
    ensures |r| == |s| <==> forall k :: 0 <= k < |s| ==> p(s[k])
    ensures |r| == |s| ==> r == s
  {
    if |s| == 0 then []
    else
      assert s == [s[0]] + s[1..];
      (if p(s[0]) then [s[0]] else []) + Filter(s[1..], p)
  }

  /** A filter keeps every element `p` picks, as often as it occurs, in its
      order, and nothing else. */
  lemma {:induction false} FilterSelects<T(!new)>(s: seq<T>, p: T -> bool)
    ensures Subsequence(Filter(s, p), s) && Selects(Filter(s, p), s, p)
    decreases |s|
  {
    if |s| > 0 {
      FilterSelects(s[1..], p);
      SelectStep(s, p, Filter(s[1..], p));
    }
  }

  /** Filters by two predicates that agree on every element give the same result. */
  lemma {:induction false} FilterAgrees<T(!new)>(s: seq<T>, p: T -> bool, q: T -> bool)
    requires forall k :: 0 <= k < |s| ==> p(s[k]) == q(s[k])
    ensures Filter(s, p) == Filter(s, q)
    decreases |s|
  {
    if |s| > 0 {
      FilterAgrees(s[1..], p, q);
    }
  }

  /** `s.map(x => p(x) ? f(x) : x)`: every element `p` picks is rewritten
      in place, every other one is kept. */
  function MapWhere<T>(s: seq<T>, p: T -> bool, f: T -> T): (r: seq<T>)
    ensures |r| == |s|
    ensures forall k :: 0 <= k < |s| ==> r[k] == if p(s[k]) then f(s[k]) else s[k]
  {
    seq(|s|, k requires 0 <= k < |s| => if p(s[k]) then f(s[k]) else s[k])
  }

  /** When `p` picks the element at `k` and no other, the rewrite touches
      exactly that one position. */
  lemma MapWhereAtOne<T>(s: seq<T>, p: T -> bool, f: T -> T, k: nat)
    requires k < |s| && p(s[k])
    requires forall j :: 0 <= j < |s| && j != k ==> !p(s[j])
    ensures MapWhere(s, p, f) == s[k := f(s[k])]
  {
  }

  /** When `p` picks nothing, the rewrite is the identity. */
  lemma MapWhereNone<T>(s: seq<T>, p: T -> bool, f: T -> T)
    requires forall j :: 0 <= j < |s| ==> !p(s[j])
    ensures MapWhere(s, p, f) == s
  {
  }
}

=== FILE: task_form.dfy ===
/** The task form (client/src/components/TaskForm.jsx): its fields, the two
    effects that load a task for editing and pick a default assignee, the
    payload a submit sends, and the state a submit leaves behind. */
module TaskForm {
  import opened Wrappers
  import opened Text
  import opened Records
  import opened Seqs
  import opened TaskItem
  import TaskRoutes

  /** The component's state hooks. `file` is the chosen upload, by name. */
  datatype Form = Form(
    title: string,
    description: string,
    status: string,
    dueDate: string,
    file: Option<string>,
    assigneeId: string,
    requestMessage: string)

  /** The initial state, which `resetForm` restores. */
  const EMPTY_FORM: Form := Form("", "", PENDING, "", None, "", "")

  /** A user as the `users` prop carries it; `role` may be missing. */
  datatype Member = Member(userId: nat, role: Option<string>)

  /** `value || ''` on a nullable text column. */
  function OrEmpty(v: Option<string>): (r: string)
    ensures r == "" <==> v.None? || v.value == ""
    ensures r != "" ==> v == Some(r)
  {
    if v.None? then "" else v.value
  }

  /** The edit-mode branch of the first effect: the task's text fields,
      `Pending` for a missing status, the due date cut at `T`, no file and
      no request message; the assignee choice is left alone. */
  function LoadForEdit(f: Form, task: Task): (r: Form)
    ensures r.assigneeId == f.assigneeId
    ensures r.file.None? && r.requestMessage == ""
    ensures r.status != ""
    ensures r.status == PENDING <==> task.status.None? || task.status.value == "" || task.status.value == PENDING
    ensures r.status != PENDING ==> task.status == Some(r.status)
    ensures r.title == OrEmpty(task.title) && r.description == OrEmpty(task.description)
    ensures r.title != "" ==> task.title == Some(r.title)
    ensures r.title == "" <==> task.title.None? || task.title.value == ""
    ensures r.description != "" ==> task.description == Some(r.description)
    ensures 'T' !in r.dueDate
    ensures task.dueDate.None? || task.dueDate.value == "" ==> r.dueDate == ""
    ensures task.dueDate.Some? && task.dueDate.value != "" ==>
      && r.dueDate == DueLabel(task.dueDate)
      && |r.dueDate| <= |task.dueDate.value|
      && r.dueDate == task.dueDate.value[..|r.dueDate|]
      && (|r.dueDate| < |task.dueDate.value| ==> task.dueDate.value[|r.dueDate|] == 'T')
  {
    var status := if task.status.None? || task.status.value == "" then PENDING else task.status.value;
    var dueDate := if task.dueDate.None? || task.dueDate.value == "" then "" else BeforeFirst(task.dueDate.value, 'T');
    f.(title := OrEmpty(task.title), description := OrEmpty(task.description), status := status,
       dueDate := dueDate, file := None, requestMessage := "")
  }

  /** The first effect, run whenever the task being edited changes: load
      it, or reset the form when editing ends. */
  function OnEditingChange(f: Form, editing: Option<Task>): Form {
    if editing.Some? then LoadForEdit(f, editing.value) else EMPTY_FORM
  }

  /** Opening a task for editing and submitting at once sends the task back:
      its trimmed title and description, its status, no request message, and
      the date the card shows, so a stored plain date goes back unchanged. */
  lemma EditRoundTrip(f: Form, task: Task, viewer: Option<Caller>)
    requires task.title.Some? && !AllSpace(task.title.value)
    ensures var p := Submit(OnEditingChange(f, Some(task)), true, viewer);
      && p.Some? && p.value.EditPayload?
      && p.value.title == Trim(task.title.value)
      && p.value.description == Trim(OrEmpty(task.description))
      && (task.status.Some? && task.status.value != "" ==> p.value.status == task.status.value)
      && (task.status.None? ==> p.value.status == PENDING)
      && (task.dueDate.None? || task.dueDate.value == "" ==> p.value.dueDate.None?)
      && (task.dueDate.Some? && task.dueDate.value != "" && 'T' !in task.dueDate.value ==>
            p.value.dueDate == task.dueDate)
      && p.value.requestMessage.None?
  {
    var form := OnEditingChange(f, Some(task));
    if task.dueDate.Some? && task.dueDate.value != "" && 'T' !in task.dueDate.value {
      DueLabelOfDate(task.dueDate.value, "");
    }
  }

  /** `users.find(u => u.role === 'USER') || users[0]`. */
  function DefaultAssignee(users: seq<Member>): (r: Option<Member>)
    ensures r.None? <==> |users| == 0
    ensures r.Some? ==> r.value in users
    ensures r.Some? && r.value.role != Some(USER) ==>
      r.value == users[0] && forall k :: 0 <= k < |users| ==> users[k].role != Some(USER)
    ensures r.Some? && r.value.role == Some(USER) ==>
      exists k :: 0 <= k < |users| && users[k] == r.value && forall j :: 0 <= j < k ==> users[j].role != Some(USER)
  {
    if |users| == 0 then None
    else match FirstUserRole(users)
      case Some(u) => Some(u)
      case None => Some(users[0])
  }

  /** `users.find(u => u.role === 'USER')`. */
  function FirstUserRole(users: seq<Member>): (r: Option<Member>)
    ensures r.None? <==> forall k :: 0 <= k < |users| ==> users[k].role != Some(USER)
    ensures r.Some? ==> r.value.role == Some(USER)
    ensures r.Some? ==>
      exists k :: 0 <= k < |users| && users[k] == r.value && forall j :: 0 <= j < k ==> users[j].role != Some(USER)
  {
    if |users| == 0 then None
    else if users[0].role == Some(USER) then Some(users[0])
    else
      var rest := FirstUserRole(users[1..]);
      assert rest.Some? ==> exists k :: (1 <= k < |users| && users[k] == rest.value
        && forall j :: 1 <= j < k ==> users[j].role != Some(USER));
      rest
  }

  /** The second effect, run when the users or the edited task change: in
      create mode with users at hand, select the default assignee's id. */
  function OnUsersChange(f: Form, editing: Option<Task>, users: seq<Member>): (r: Form)
    ensures r == f.(assigneeId := r.assigneeId)
    ensures editing.Some? || |users| == 0 ==> r == f
    ensures editing.None? && |users| > 0 ==> AllDigits(r.assigneeId)
    ensures editing.None? && |users| > 0 ==>
      exists k :: 0 <= k < |users|
        && DigitsValue(r.assigneeId) == users[k].userId
        && ((users[k].role == Some(USER) && forall j :: 0 <= j < k ==> users[j].role != Some(USER))
            || (k == 0 && forall j :: 0 <= j < |users| ==> users[j].role != Some(USER)))
  {
    if editing.None? && |users| > 0 then f.(assigneeId := Decimal(DefaultAssignee(users).value.userId))
    else f
  }

  /** A user the assignee select offers: role `USER`, or no role at all. */
  predicate Assignable(u: Member) {
    u.role == Some(USER) || u.role.None?
  }

  /** The options of the assignee select, in list order. */
  function AssigneeChoices(users: seq<Member>): (r: seq<Member>)
    ensures |r| <= |users|
    ensures forall k :: 0 <= k < |r| ==> r[k] in users && Assignable(r[k])
    ensures forall k :: 0 <= k < |users| && Assignable(users[k]) ==> users[k] in r
  {
    Filter(users, u => Assignable(u))
  }

  /** The preselected assignee is one of the select's options exactly when
      the list has a `USER` or its first user has no role; with only admins
      listed, the select holds an id none of its options carries. */
  lemma DefaultAssigneeOffered(users: seq<Member>)
    requires |users| > 0
    ensures DefaultAssignee(users).value in AssigneeChoices(users) <==>
      (exists k :: 0 <= k < |users| && users[k].role == Some(USER)) || users[0].role.None?
  {
    var d := DefaultAssignee(users).value;
    if FirstUserRole(users).None? {
      assert d == users[0];
    } else {
      var k :| 0 <= k < |users| && users[k] == d;
      assert Assignable(users[k]);
    }
  }

  /** The names of the `FormData` entries a create can carry. */
  datatype Key = Title | Description | Status | DueDate | AssigneeId | File

  /** The entry name as it goes over the wire. */
  function KeyName(k: Key): string {
    match k
    case Title => "title"
    case Description => "description"
    case Status => "status"
    case DueDate => "due_date"
    case AssigneeId => "assignee_id"
    case File => "file"
  }

  /** Different keys go out under different names, so looking an entry up
      by key is looking it up by name. */
  lemma KeyNamesDistinct(a: Key, b: Key)
    ensures KeyName(a) == KeyName(b) <==> a == b
  {
  }

  /** One entry of a `FormData`. */
  datatype Field = TextField(key: Key, value: string) | FileField(key: Key, file: string)

  /** What `handleSubmit` hands on: the JSON object of an update, or the
      multipart entries of a create. The update object has no assignee. */
  datatype Payload =
    | EditPayload(status: string, title: string, description: string, dueDate: Option<string>, requestMessage: Option<string>)
    | CreatePayload(fields: seq<Field>)

  /** The names of the entries, in order. */
  function Keys(fields: seq<Field>): (r: seq<Key>)
    ensures |r| == |fields|
    ensures forall k :: 0 <= k < |fields| ==> r[k] == fields[k].key
  {
    if |fields| == 0 then [] else [fields[0].key] + Keys(fields[1..])
  }

  /** The first entry called `key`, as `FormData.get` finds it. */
  function Entry(fields: seq<Field>, key: Key): (r: Option<Field>)
    ensures r.None? <==> forall k :: 0 <= k < |fields| ==> fields[k].key != key
    ensures r.Some? ==> r.value in fields && r.value.key == key
  {
    if |fields| == 0 then None
    else if fields[0].key == key then Some(fields[0])
    else Entry(fields[1..], key)
  }

  lemma {:induction false} KeysAppend(a: seq<Field>, b: seq<Field>)
    ensures Keys(a + b) == Keys(a) + Keys(b)
  {
    assert Keys(a + b) == Keys(a) + Keys(b) by {
      forall k | 0 <= k < |a + b|
        ensures Keys(a + b)[k] == (Keys(a) + Keys(b))[k]
      {
        if k < |a| {
          assert (a + b)[k] == a[k];
        } else {
          assert (a + b)[k] == b[k - |a|];
        }
      }
    }
  }

  /** The names of the entries that follow `status`, in order. */
  function OptionalKeys(f: Form): seq<Key> {
    (if f.dueDate != "" then [DueDate] else [])
    + (if f.assigneeId != "" then [AssigneeId] else [])
    + (if f.file.Some? then [File] else [])
  }

  /** Looking past a first entry with another name. */
  lemma EntryPast(x: Field, rest: seq<Field>, key: Key)
    ensures Entry([x] + rest, key) == if x.key == key then Some(x) else Entry(rest, key)
  {
    assert ([x] + rest)[1..] == rest;
  }

  /** The update object of `handleSubmit`: the trimmed text fields, the
      status, the due date or null, and a trimmed request message only from
      a `USER` who wrote one. */
  function EditPayloadOf(f: Form, viewer: Option<Caller>): (p: Payload)
    ensures p.EditPayload?
    ensures p.title == Trim(f.title) && p.description == Trim(f.description) && p.status == f.status
    ensures p.dueDate.None? <==> f.dueDate == ""
    ensures p.dueDate.Some? ==> p.dueDate.value == f.dueDate
    ensures p.requestMessage.Some? <==> IsUser(viewer) && !AllSpace(f.requestMessage)
    ensures p.requestMessage.Some? ==> p.requestMessage.value == Trim(f.requestMessage)
  {
    var message := Trim(f.requestMessage);
    EditPayload(f.status, Trim(f.title), Trim(f.description), if f.dueDate == "" then None else Some(f.dueDate),
                if IsUser(viewer) && message != "" then Some(message) else None)
  }

  /** The `FormData` of `handleSubmit`: the trimmed text fields and the
      status first, then the due date, the assignee and the file, each only
      when given. */
  function CreatePayloadOf(f: Form): (p: Payload)
    ensures p.CreatePayload?
    ensures Keys(p.fields) == [Title, Description, Status] + OptionalKeys(f)
    ensures Entry(p.fields, Title) == Some(TextField(Title, Trim(f.title)))
    ensures Entry(p.fields, Description) == Some(TextField(Description, Trim(f.description)))
    ensures Entry(p.fields, Status) == Some(TextField(Status, f.status))
    ensures Entry(p.fields, DueDate) == (if f.dueDate == "" then None else Some(TextField(DueDate, f.dueDate)))
    ensures Entry(p.fields, AssigneeId) == (if f.assigneeId == "" then None else Some(TextField(AssigneeId, f.assigneeId)))
    ensures Entry(p.fields, File) == (if f.file.None? then None else Some(FileField(File, f.file.value)))
  {
    var rest := OptionalFields(f);
    var fixed := [TextField(Title, Trim(f.title)), TextField(Description, Trim(f.description)), TextField(Status, f.status)];
    FixedThenOptional(fixed[0], fixed[1], fixed[2], rest);
    KeysAppend(fixed, rest);
    OptionalFieldKeys(f);
    assert Keys(fixed) == [Title, Description, Status];
    CreatePayload([TextField(Title, Trim(f.title)), TextField(Description, Trim(f.description)), TextField(Status, f.status)] + rest)
  }

  /** One entry when `present`, none otherwise. */
  function When(present: bool, x: Field): seq<Field> {
    if present then [x] else []
  }

  /** An optional entry is found when it is there, and is looked past. */
  lemma EntryWhen(present: bool, x: Field, rest: seq<Field>, key: Key)
    ensures Entry(When(present, x) + rest, key) == if present && x.key == key then Some(x) else Entry(rest, key)
  {
    if present {
      EntryPast(x, rest, key);
    } else {
      assert When(present, x) + rest == rest;
    }
  }

  /** The entries after `status`: the due date, the assignee and the file,
      each only when the form has one. */
  function OptionalFields(f: Form): (r: seq<Field>)
    ensures Entry(r, DueDate) == (if f.dueDate == "" then None else Some(TextField(DueDate, f.dueDate)))
    ensures Entry(r, AssigneeId) == (if f.assigneeId == "" then None else Some(TextField(AssigneeId, f.assigneeId)))
    ensures Entry(r, File) == (if f.file.None? then None else Some(FileField(File, f.file.value)))
  {
    var fileField := FileField(File, if f.file.None? then "" else f.file.value);
    var file := When(f.file.Some?, fileField) + [];
    var assignee := TextField(AssigneeId, f.assigneeId);
    var due := TextField(DueDate, f.dueDate);
    var later := When(f.assigneeId != "", assignee) + file;
    EntryWhen(f.file.Some?, fileField, [], File);
    EntryWhen(f.assigneeId != "", assignee, file, File);
    EntryWhen(f.assigneeId != "", assignee, file, AssigneeId);
    EntryWhen(f.assigneeId != "", assignee, file, DueDate);
    EntryWhen(f.dueDate != "", due, later, File);
    EntryWhen(f.dueDate != "", due, later, AssigneeId);
    EntryWhen(f.dueDate != "", due, later, DueDate);
    When(f.dueDate != "", due) + (When(f.assigneeId != "", assignee) + file)
  }

  /** The optional entries appear under their names in that order. */
  lemma OptionalFieldKeys(f: Form)
    ensures Keys(OptionalFields(f)) == OptionalKeys(f)
  {
    var fileField := FileField(File, if f.file.None? then "" else f.file.value);
    var assignee := TextField(AssigneeId, f.assigneeId);
    var due := TextField(DueDate, f.dueDate);
    assert When(f.file.Some?, fileField) + [] == When(f.file.Some?, fileField);
    KeysOfThree(f.dueDate != "", due, f.assigneeId != "", assignee, f.file.Some?, fileField);
  }

  lemma KeysOfThree(a: bool, x: Field, b: bool, y: Field, c: bool, z: Field)
    ensures Keys(When(a, x) + (When(b, y) + When(c, z)))
      == (if a then [x.key] else []) + (if b then [y.key] else []) + (if c then [z.key] else [])
  {
    KeysWhen(a, x);
    KeysWhen(b, y);
    KeysWhen(c, z);
    KeysAppend(When(b, y), When(c, z));
    KeysAppend(When(a, x), When(b, y) + When(c, z));
  }

  lemma KeysWhen(present: bool, x: Field)
    ensures Keys(When(present, x)) == if present then [x.key] else []
  {
  }

  /** The entries in front of the optional ones: `title`, `description`
      and `status`, found ahead of anything that follows. */
  lemma FixedThenOptional(t: Field, d: Field, st: Field, rest: seq<Field>)
    requires t.key == Title && d.key == Description && st.key == Status
    ensures Keys([t, d, st] + rest)[..3] == [Title, Description, Status]
    ensures Entry([t, d, st] + rest, DueDate) == Entry(rest, DueDate)
    ensures Entry([t, d, st] + rest, AssigneeId) == Entry(rest, AssigneeId)
    ensures Entry([t, d, st] + rest, File) == Entry(rest, File)
    ensures Entry([t, d, st] + rest, Title) == Some(t)
    ensures Entry([t, d, st] + rest, Description) == Some(d)
    ensures Entry([t, d, st] + rest, Status) == Some(st)
  {
    var ks := Keys([t, d, st] + rest);
    assert ks[0] == Title && ks[1] == Description && ks[2] == Status;
    assert ks[..3] == [Title, Description, Status];
    EntryAfterFixed(t, d, st, rest, Title);
    EntryAfterFixed(t, d, st, rest, Description);
    EntryAfterFixed(t, d, st, rest, Status);
    EntryAfterFixed(t, d, st, rest, DueDate);
    EntryAfterFixed(t, d, st, rest, AssigneeId);
    EntryAfterFixed(t, d, st, rest, File);
  }

  lemma EntryAfterFixed(t: Field, d: Field, st: Field, rest: seq<Field>, key: Key)
    ensures Entry([t, d, st] + rest, key) ==
      if t.key == key then Some(t) else if d.key == key then Some(d) else if st.key == key then Some(st) else Entry(rest, key)
  {
    assert [t, d, st] + rest == [t] + ([d] + ([st] + rest));
    EntryPast(st, rest, key);
    EntryPast(d, [st] + rest, key);
    EntryPast(t, [d] + ([st] + rest), key);
  }

  /** `handleSubmit`: nothing for a blank title, else the update object in
      edit mode and the `FormData` in create mode. */
  function Submit(f: Form, editing: bool, viewer: Option<Caller>): (r: Option<Payload>)
    ensures r.None? <==> AllSpace(f.title)
    ensures r.Some? && editing ==> r.value == EditPayloadOf(f, viewer) && r.value.title != ""
    ensures r.Some? && !editing ==> r.value == CreatePayloadOf(f)
  {
    if Trim(f.title) == "" then None
    else if editing then Some(EditPayloadOf(f, viewer))
    else Some(CreatePayloadOf(f))
  }

  /** The state a submit leaves: the form and the task being edited. */
  datatype Settled = Settled(form: Form, editing: Option<Task>)

  /** The end of `handleSubmit` and the effects it sets off. A blank title
      returns before the `try`, so nothing changes: editing goes on and the
      form stays as it is. Otherwise a sent payload resets the form and a
      failed one leaves it; the `finally` ends editing, and ending it re-runs
      both effects, so an edit leaves an empty form with the default assignee
      selected. */
  function AfterSubmit(f: Form, editing: Option<Task>, users: seq<Member>, sent: bool): (r: Settled)
    ensures AllSpace(f.title) ==> r == Settled(f, editing)
    ensures r.editing.None? <==> !AllSpace(f.title) || editing.None?
    ensures !AllSpace(f.title) && editing.None? ==> r.form == (if sent then EMPTY_FORM else f)
    ensures !AllSpace(f.title) && editing.Some? ==> r.form == OnUsersChange(EMPTY_FORM, None, users)
    ensures !AllSpace(f.title) && editing.Some? ==> r.form.title == "" && r.form.status == PENDING && r.form.requestMessage == ""
  {
    if Trim(f.title) == "" then Settled(f, editing)
    else
      var afterHandler := if sent then EMPTY_FORM else f;
      if editing.None? then Settled(afterHandler, None)
      else Settled(OnUsersChange(OnEditingChange(afterHandler, None), None, users), None)
  }

  /** After a create is sent, `resetForm` clears the assignee, and neither
      effect runs again (neither `users` nor `editingTask` changed). So the
      next create, whatever title is typed, sends no `assignee_id` entry,
      while the first one sent the default assignee. */
  lemma CreateAgainSendsNoAssignee(f: Form, users: seq<Member>, title: string)
    requires !AllSpace(f.title) && !AllSpace(title)
    ensures var next := AfterSubmit(f, None, users, true);
      && next.editing.None?
      && next.form.assigneeId == ""
      && Submit(next.form.(title := title), false, None).Some?
      && Entry(Submit(next.form.(title := title), false, None).value.fields, AssigneeId).None?
    ensures var start := OnUsersChange(f, None, users);
      |users| > 0 ==> Entry(Submit(start, false, None).value.fields, AssigneeId).Some?
  {
  }

  /** An update sent from this form, once it reaches the server as the
      request body, has no `assignee_id`; so a successful update stores NULL
      there, and the caller no longer sees the task in their own listing. */
  lemma EditPayloadClearsAssignee(tasks: seq<Task>, callerId: nat, taskId: nat, f: Form, viewer: Option<Caller>,
                                  status: Option<string>, search: Option<string>, isDate: string -> bool)
    requires !AllSpace(f.title)
    ensures var p := Submit(f, true, viewer).value;
      var body := TaskRoutes.UpdateBody(Some(p.title), Some(p.description), Some(p.status), p.dueDate, None);
      var w := TaskRoutes.UpdateTask(tasks, callerId, taskId, body, isDate);
      w.reply.Ok? ==> w.reply.value.assigneeId.None? && !TaskRoutes.Listed(w.reply.value, callerId, status, search)
  {
  }
}

=== FILE: task_item.dfy ===
/** The decisions a task card makes (client/src/components/TaskItem.jsx):
    the badge class of a status, which actions the viewer is offered, the
    due date shown and the attachment's label. */
module TaskItem {
  import opened Wrappers
  import opened Text
  import opened Records
  import TaskRoutes

  const PENDING_CLASS: string := "status-pending"
  const IN_PROGRESS_CLASS: string := "status-in-progress"
  const COMPLETED_CLASS: string := "status-completed"

  predicate KnownStatus(status: Option<string>) {
    status == Some(PENDING) || status == Some(IN_PROGRESS) || status == Some(COMPLETED)
  }

  /** `getStatusClass`. */
  function StatusClass(status: Option<string>): (r: string)
    ensures r != "" <==> KnownStatus(status)
    ensures status == Some(PENDING) ==> r == PENDING_CLASS
    ensures status == Some(IN_PROGRESS) ==> r == IN_PROGRESS_CLASS
    ensures status == Some(COMPLETED) ==> r == COMPLETED_CLASS
  {
    if status == Some(PENDING) then PENDING_CLASS
    else if status == Some(IN_PROGRESS) then IN_PROGRESS_CLASS
    else if status == Some(COMPLETED) then COMPLETED_CLASS
    else ""
  }

  /** The three statuses get three different classes. */
  lemma StatusClassesDistinct(a: Option<string>, b: Option<string>)
    requires KnownStatus(a) && KnownStatus(b)
    ensures StatusClass(a) == StatusClass(b) <==> a == b
  {
  }

  /** The buttons a card shows. */
  datatype Actions = Actions(edit: bool, delete: bool)

  /** `user && user.role === 'USER'`. */
  predicate IsUser(viewer: Option<Caller>) {
    viewer.Some? && viewer.value.role == USER
  }

  /** `canEdit` and `canDelete`: a `USER` may edit an unfinished task and
      delete a finished one, never both; anyone else is offered both. */
  function ActionsFor(viewer: Option<Caller>, task: Task): (r: Actions)
    ensures IsUser(viewer) ==> (r.edit <==> task.status != Some(COMPLETED))
    ensures IsUser(viewer) ==> (r.delete <==> task.status == Some(COMPLETED))
    ensures IsUser(viewer) ==> r.edit != r.delete
    ensures !IsUser(viewer) ==> r.edit && r.delete
  {
    var isUser := IsUser(viewer);
    Actions(if isUser then task.status != Some(COMPLETED) else true,
            if isUser then task.status == Some(COMPLETED) else true)
  }

  /** `task.due_date ? task.due_date.split('T')[0] : 'N/A'`. */
  function DueLabel(dueDate: Option<string>): (r: string)
    ensures dueDate.None? || dueDate.value == "" ==> r == "N/A"
    ensures dueDate.Some? && dueDate.value != "" ==>
      && 'T' !in r
      && |r| <= |dueDate.value|
      && r == dueDate.value[..|r|]
      && (|r| < |dueDate.value| ==> dueDate.value[|r|] == 'T')
  {
    if dueDate.None? || dueDate.value == "" then "N/A" else BeforeFirst(dueDate.value, 'T')
  }

  /** A plain `YYYY-MM-DD` date is shown as it is, and so is the date part
      of a `YYYY-MM-DDThh:mm…` timestamp. */
  lemma DueLabelOfDate(date: string, time: string)
    requires date != "" && 'T' !in date
    ensures DueLabel(Some(date)) == date
    ensures DueLabel(Some(date + "T" + time)) == date
  {
    var s := date + "T" + time;
    assert s[..|date|] == date;
    BeforeFirstAt(s, date, 'T');
    assert date[..|date|] == date;
  }

  /** The label of the attachment link: present exactly when `file_path` is
      a non-empty string, and then the text after its last `-`. */
  function AttachmentLabel(filePath: Option<string>): (r: Option<string>)
    ensures r.Some? <==> filePath.Some? && filePath.value != ""
    ensures r.Some? ==>
      && '-' !in r.value
      && |r.value| <= |filePath.value|
      && r.value == filePath.value[|filePath.value| - |r.value|..]
      && (|r.value| < |filePath.value| ==> filePath.value[|filePath.value| - |r.value| - 1] == '-')
  {
    if filePath.None? || filePath.value == "" then None else Some(AfterLast(filePath.value, '-'))
  }

  /** The label of a stored upload is the name the file was uploaded under,
      when that name has no `-` and no backslash: the server's
      `Date.now() + '-' + originalname` and its backslash-to-slash rewrite
      lose nothing the card shows. */
  lemma AttachmentShowsOriginalName(folder: string, millis: nat, originalName: string)
    requires '-' !in originalName && '\\' !in originalName
    ensures AttachmentLabel(Some(SlashPath(folder + TaskRoutes.StoredFileName(millis, originalName)))) == Some(originalName)
  {
    var path := SlashPath(folder + TaskRoutes.StoredFileName(millis, originalName));
    StoredPathEnds(folder, millis, originalName);
    AfterLastAt(path, originalName, '-');
  }

  /** A name without backslashes, put after a `-` at the end of any path,
      is still there once the slashes are rewritten. */
  lemma DashNameSurvivesSlashes(pre: string, originalName: string)
    requires '\\' !in originalName
    ensures var path := SlashPath(pre + ("-" + originalName));
      && |originalName| < |path|
      && path[|path| - |originalName|..] == originalName
      && path[|path| - |originalName| - 1] == '-'
  {
    var tail := "-" + originalName;
    assert '\\' !in tail;
    SlashPathPlainTail(pre, tail);
    var path := SlashPath(pre + tail);
    assert path[|path| - |originalName|..] == path[|pre|..][1..];
  }

  /** The stored path, slashes rewritten, still ends in `-` and the original name. */
  lemma StoredPathEnds(folder: string, millis: nat, originalName: string)
    requires '\\' !in originalName
    ensures var path := SlashPath(folder + TaskRoutes.StoredFileName(millis, originalName));
      && |originalName| < |path|
      && path[|path| - |originalName|..] == originalName
      && path[|path| - |originalName| - 1] == '-'
  {
    TaskRoutes.StoredFileNameParts(millis, originalName);
    assert folder + TaskRoutes.StoredFileName(millis, originalName)
      == (folder + Decimal(millis)) + ("-" + originalName);
    DashNameSurvivesSlashes(folder + Decimal(millis), originalName);
  }
}

=== FILE: task_routes.dfy ===
/** The task handlers of server/routes/tasks.js over a store whose `tasks`
    and `users` tables are sequences of rows. Each handler receives the
    `req.user` the token middleware produced; none of them looks at its role. */
module TaskRoutes {
  import opened Wrappers
  import opened Text
  import opened Pattern
  import opened Ordering
  import opened Seqs
  import opened Paging
  import opened Records

  // ---------------------------------------------------------------------
  // The listing's SQL, as data: conjuncts that name their values by `$n`.
  // ---------------------------------------------------------------------

  /** A bind parameter. */
  datatype Param = IntParam(n: int) | TextParam(text: string)

  /** A `WHERE` conjunct over `tasks t`, naming its value by the placeholder `$slot`. */
  datatype Cond =
    | AssigneeIs(slot: nat)   // t.assignee_id = $slot
    | StatusIs(slot: nat)     // t.status = $slot
    | TitleILike(slot: nat)   // t.title ILIKE $slot

  /** A statement over `tasks`: its conjuncts and, for the data query, the placeholders of `LIMIT` and `OFFSET`. */
  datatype Statement = Statement(conds: seq<Cond>, limitSlot: Option<nat>, offsetSlot: Option<nat>)

  /** The data query, the count query and the parameter list each is run with. */
  datatype ListPlan = ListPlan(data: Statement, count: Statement, params: seq<Param>, countParams: seq<Param>)

  function Slot(c: Cond): nat {
    match c
    case AssigneeIs(k) => k
    case StatusIs(k) => k
    case TitleILike(k) => k
  }

  function HighestCond(conds: seq<Cond>): nat {
    if |conds| == 0 then 0 else Max(Slot(conds[0]), HighestCond(conds[1..]))
  }

  /** The number of parameters Postgres expects: the highest `$n` the text mentions. */
  function HighestSlot(q: Statement): nat {
    Max(HighestCond(q.conds), Max(q.limitSlot.GetOr(0), q.offsetSlot.GetOr(0)))
  }

  /** The value bound to `$slot`, when there is one. */
  function Arg(params: seq<Param>, slot: nat): Option<Param> {
    if 1 <= slot <= |params| then Some(params[slot - 1]) else None
  }

  predicate TextArg(params: seq<Param>, slot: nat) {
    Arg(params, slot).Some? && Arg(params, slot).value.TextParam?
  }

  /** The value of a `LIMIT`/`OFFSET` placeholder is a non-negative integer. */
  predicate CountArg(params: seq<Param>, slot: Option<nat>) {
    slot.Some? ==> Arg(params, slot.value).Some? && Arg(params, slot.value).value.IntParam? && Arg(params, slot.value).value.n >= 0
  }

  predicate Typed(c: Cond, params: seq<Param>) {
    match c
    case AssigneeIs(k) => Arg(params, k).Some? && Arg(params, k).value.IntParam?
    case StatusIs(k) => TextArg(params, k)
    case TitleILike(k) => TextArg(params, k)
  }

  predicate AllTyped(conds: seq<Cond>, params: seq<Param>) {
    |conds| == 0 || (Typed(conds[0], params) && AllTyped(conds[1..], params))
  }

  /** Postgres runs `q` with `params`: exactly one value per placeholder up to
      the highest, each of the kind its clause compares with, and no negative
      `LIMIT` or `OFFSET`. Anything else is a database error. */
  predicate Binds(q: Statement, params: seq<Param>) {
    && |params| == HighestSlot(q)
    && AllTyped(q.conds, params)
    && CountArg(params, q.limitSlot)
    && CountArg(params, q.offsetSlot)
  }

  /** The conjunct `c`, its placeholder filled from `params`, holds of row `t`. */
  predicate Holds(c: Cond, params: seq<Param>, t: Task) {
    var a := Arg(params, Slot(c));
    match c
    case AssigneeIs(_) => a.Some? && a.value.IntParam? && t.assigneeId.Some? && t.assigneeId.value == a.value.n
    case StatusIs(_) => a.Some? && a.value.TextParam? && t.status == Some(a.value.text)
    case TitleILike(_) => a.Some? && a.value.TextParam? && t.title.Some? && ILike(t.title.value, a.value.text)
  }

  /** Every conjunct holds. */
  predicate Satisfies(conds: seq<Cond>, params: seq<Param>, t: Task) {
    |conds| == 0 || (Holds(conds[0], params, t) && Satisfies(conds[1..], params, t))
  }

  /** A query-string value that `if (value)` accepts: present and not empty. */
  predicate Active(v: Option<string>) {
    v.Some? && v.value != ""
  }

  /** The listing's filter, stated directly: the caller's own tasks, the exact
      status when one is given, the title pattern `%search%` when a search is given. */
  predicate Listed(t: Task, callerId: nat, status: Option<string>, search: Option<string>) {
    && t.assigneeId == Some(callerId)
    && (Active(status) ==> t.status == Some(status.value))
    && (Active(search) ==> t.title.Some? && ILike(t.title.value, Contains(search.value)))
  }

  /** The filter values, in the order the filters are tried. */
  function FilterValues(status: Option<string>, search: Option<string>): seq<Param> {
    (if Active(status) then [TextParam(status.value)] else [])
    + (if Active(search) then [TextParam(Contains(search.value))] else [])
  }

  /** The statements and parameter lists of the listing, built as the handler
      builds them: each filter pushes its value and then refers to it as
      `$<length of the list>`; `LIMIT` and `OFFSET` are pushed last; the count
      query gets the list without its last two values. */
  function PlanList(callerId: nat, status: Option<string>, search: Option<string>, pageLimit: int, offset: int): (p: ListPlan)
    ensures p.count.conds == p.data.conds
    ensures p.count.limitSlot.None? && p.count.offsetSlot.None?
    ensures p.countParams == [IntParam(callerId)] + FilterValues(status, search)
    ensures p.params == p.countParams + [IntParam(pageLimit), IntParam(offset)]
    ensures p.data.limitSlot == Some(|p.params| - 1) && p.data.offsetSlot == Some(|p.params|)
    ensures Binds(p.data, p.params) <==> pageLimit >= 0 && offset >= 0
    ensures Binds(p.count, p.countParams)
    ensures forall t :: Satisfies(p.data.conds, p.params, t) <==> Listed(t, callerId, status, search)
    ensures forall t :: Satisfies(p.count.conds, p.countParams, t) <==> Listed(t, callerId, status, search)
  {
    var params0 := [IntParam(callerId)];
    var conds0 := [AssigneeIs(1)];
    var params1 := if Active(status) then params0 + [TextParam(status.value)] else params0;
    var conds1 := if Active(status) then conds0 + [StatusIs(|params1|)] else conds0;
    var params2 := if Active(search) then params1 + [TextParam(Contains(search.value))] else params1;
    var conds2 := if Active(search) then conds1 + [TitleILike(|params2|)] else conds1;
    var params3 := params2 + [IntParam(pageLimit)];
    var params4 := params3 + [IntParam(offset)];
    assert params4[..|params4| - 2] == params2;
    PlanFacts(callerId, status, search, params2, conds2, params4);
    assert params4 == params2 + [IntParam(pageLimit), IntParam(offset)];
    PlanBinds(params2, conds2, pageLimit, offset);
    ListPlan(Statement(conds2, Some(|params3|), Some(|params4|)), Statement(conds2, None, None), params4, params4[..|params4| - 2])
  }

  /** The data query binds exactly when its `LIMIT` and `OFFSET` values are
      non-negative, given conjuncts that fit the filter values. */
  lemma PlanBinds(fp: seq<Param>, conds: seq<Cond>, pageLimit: int, offset: int)
    requires HighestCond(conds) == |fp|
    requires AllTyped(conds, fp + [IntParam(pageLimit), IntParam(offset)])
    ensures var params := fp + [IntParam(pageLimit), IntParam(offset)];
      Binds(Statement(conds, Some(|fp| + 1), Some(|fp| + 2)), params) <==> pageLimit >= 0 && offset >= 0
  {
    var params := fp + [IntParam(pageLimit), IntParam(offset)];
    assert Arg(params, |fp| + 1) == Some(IntParam(pageLimit));
    assert Arg(params, |fp| + 2) == Some(IntParam(offset));
  }

  lemma {:induction false} SatisfiesAppend(a: seq<Cond>, b: seq<Cond>, params: seq<Param>, t: Task)
    ensures Satisfies(a + b, params, t) <==> Satisfies(a, params, t) && Satisfies(b, params, t)
    ensures AllTyped(a + b, params) <==> AllTyped(a, params) && AllTyped(b, params)
    ensures HighestCond(a + b) == Max(HighestCond(a), HighestCond(b))
    decreases |a|
  {
    if |a| > 0 {
      assert (a + b)[1..] == a[1..] + b;
      SatisfiesAppend(a[1..], b, params, t);
    } else {
      assert a + b == b;
    }
  }

  /** Only placeholders up to `|fp|` occur in `conds`, so appending values to `fp` changes nothing. */
  lemma {:induction false} ExtraParamsIgnored(conds: seq<Cond>, fp: seq<Param>, params: seq<Param>, t: Task)
    requires HighestCond(conds) <= |fp| <= |params| && params[..|fp|] == fp
    ensures Satisfies(conds, params, t) <==> Satisfies(conds, fp, t)
    ensures AllTyped(conds, params) <==> AllTyped(conds, fp)
    decreases |conds|
  {
    if |conds| > 0 {
      assert Arg(params, Slot(conds[0])) == Arg(fp, Slot(conds[0]));
      ExtraParamsIgnored(conds[1..], fp, params, t);
    }
  }

  /** The conjuncts `PlanList` builds mean `Listed`, with the filter values
      alone and with `LIMIT`/`OFFSET` appended. */
  lemma PlanFacts(callerId: nat, status: Option<string>, search: Option<string>,
                  filterParams: seq<Param>, conds: seq<Cond>, params: seq<Param>)
    requires filterParams == [IntParam(callerId)] + FilterValues(status, search)
    requires conds == [AssigneeIs(1)]
                      + (if Active(status) then [StatusIs(2)] else [])
                      + (if Active(search) then [TitleILike(|filterParams|)] else [])
    requires |params| == |filterParams| + 2 && params[..|filterParams|] == filterParams
    ensures HighestCond(conds) == |filterParams|
    ensures AllTyped(conds, filterParams) && AllTyped(conds, params)
    ensures forall t :: Satisfies(conds, filterParams, t) <==> Listed(t, callerId, status, search)
    ensures forall t :: Satisfies(conds, params, t) <==> Listed(t, callerId, status, search)
  {
    var t0 := Task(0, None, None, None, None, None, None, None, 0);
    PlanFactsAt(callerId, status, search, filterParams, conds, params, t0);
    forall t
      ensures Satisfies(conds, filterParams, t) <==> Listed(t, callerId, status, search)
      ensures Satisfies(conds, params, t) <==> Listed(t, callerId, status, search)
    {
      PlanFactsAt(callerId, status, search, filterParams, conds, params, t);
    }
  }

  lemma PlanFactsAt(callerId: nat, status: Option<string>, search: Option<string>,
                    fp: seq<Param>, conds: seq<Cond>, params: seq<Param>, t: Task)
    requires fp == [IntParam(callerId)] + FilterValues(status, search)
    requires conds == [AssigneeIs(1)]
                      + (if Active(status) then [StatusIs(2)] else [])
                      + (if Active(search) then [TitleILike(|fp|)] else [])
    requires |params| == |fp| + 2 && params[..|fp|] == fp
    ensures HighestCond(conds) == |fp|
    ensures AllTyped(conds, fp) && AllTyped(conds, params)
    ensures Satisfies(conds, fp, t) <==> Listed(t, callerId, status, search)
    ensures Satisfies(conds, params, t) <==> Listed(t, callerId, status, search)
  {
    var own: seq<Cond> := [AssigneeIs(1)];
    var byStatus: seq<Cond> := if Active(status) then [StatusIs(2)] else [];
    var bySearch: seq<Cond> := if Active(search) then [TitleILike(|fp|)] else [];
    SatisfiesAppend(own, byStatus, fp, t);
    SatisfiesAppend(own + byStatus, bySearch, fp, t);
    OwnConjunct(callerId, fp, t);
    StatusConjunct(status, fp, t);
    SearchConjunct(search, fp, t);
    ExtraParamsIgnored(conds, fp, params, t);
  }

  lemma OwnConjunct(callerId: nat, fp: seq<Param>, t: Task)
    requires |fp| >= 1 && fp[0] == IntParam(callerId)
    ensures Satisfies([AssigneeIs(1)], fp, t) <==> t.assigneeId == Some(callerId)
    ensures AllTyped([AssigneeIs(1)], fp) && HighestCond([AssigneeIs(1)]) == 1
  {
    assert [AssigneeIs(1)][1..] == [];
  }

  lemma StatusConjunct(status: Option<string>, fp: seq<Param>, t: Task)
    requires Active(status) ==> |fp| >= 2 && fp[1] == TextParam(status.value)
    ensures var c: seq<Cond> := if Active(status) then [StatusIs(2)] else [];
      && (Satisfies(c, fp, t) <==> (Active(status) ==> t.status == Some(status.value)))
      && AllTyped(c, fp)
      && HighestCond(c) == (if Active(status) then 2 else 0)
  {
    assert [StatusIs(2)][1..] == [];
  }

  lemma SearchConjunct(search: Option<string>, fp: seq<Param>, t: Task)
    requires Active(search) ==> |fp| >= 1 && fp[|fp| - 1] == TextParam(Contains(search.value))
    ensures var c: seq<Cond> := if Active(search) then [TitleILike(|fp|)] else [];
      && (Satisfies(c, fp, t) <==> (Active(search) ==> t.title.Some? && ILike(t.title.value, Contains(search.value))))
      && AllTyped(c, fp)
      && HighestCond(c) == (if Active(search) then |fp| else 0)
  {
    assert [TitleILike(|fp|)][1..] == [];
  }

  /** The rows of `tasks` a `WHERE` with these conjuncts keeps, in table order. */
  function Where(tasks: seq<Task>, conds: seq<Cond>, params: seq<Param>): (r: seq<Task>)
    ensures |r| <= |tasks|
    ensures forall k :: 0 <= k < |r| ==> r[k] in tasks && Satisfies(conds, params, r[k])
  {
    Filter(tasks, Satisfying(conds, params))
  }

  function Satisfying(conds: seq<Cond>, params: seq<Param>): Task -> bool {
    t => Satisfies(conds, params, t)
  }

  /** The task has an assignee whose user row exists. */
  predicate HasAssignee(t: Task, users: seq<User>) {
    t.assigneeId.Some? && FindUser(users, t.assigneeId.value).Some?
  }

  function Joinable(users: seq<User>): Task -> bool {
    t => HasAssignee(t, users)
  }

  /** `FROM tasks t JOIN users u ON t.assignee_id = u.user_id`: tasks without
      an assignee row drop out, the others gain their assignee's name and
      keep their table order (see `JoinKeepsAssigned`). */
  function JoinAssignees(tasks: seq<Task>, users: seq<User>): (r: seq<TaskRow>)
    ensures |r| <= |tasks|
    ensures forall k :: 0 <= k < |r| ==>
      && r[k].task in tasks
      && HasAssignee(r[k].task, users)
      && r[k].assigneeName == Some(FindUser(users, r[k].task.assigneeId.value).value.username)
    ensures (forall k :: 0 <= k < |tasks| ==> HasAssignee(tasks[k], users)) ==>
      |r| == |tasks| && forall k :: 0 <= k < |r| ==> r[k].task == tasks[k]
  {
    if |tasks| == 0 then []
    else
      var t := tasks[0];
      var rest := JoinAssignees(tasks[1..], users);
      if HasAssignee(t, users) then [TaskRow(t, Some(FindUser(users, t.assigneeId.value).value.username))] + rest
      else rest
  }

  /** The join keeps exactly the tasks with an assignee row: each as often
      as it occurs in the table, in table order. */
  lemma {:induction false} JoinKeepsAssigned(tasks: seq<Task>, users: seq<User>)
    ensures var ts := TasksOf(JoinAssignees(tasks, users));
      Subsequence(ts, tasks) && Selects(ts, tasks, Joinable(users))
    decreases |tasks|
  {
    if |tasks| > 0 {
      var rest := JoinAssignees(tasks[1..], users);
      JoinKeepsAssigned(tasks[1..], users);
      SelectStep(tasks, Joinable(users), TasksOf(rest));
      if HasAssignee(tasks[0], users) {
        var row := JoinAssignees(tasks, users)[0];
        assert JoinAssignees(tasks, users) == [row] + rest;
        TasksOfCons(row, rest);
      }
    }
  }

  /** The value of a `LIMIT`/`OFFSET` placeholder, or `default` without one. */
  function SlotCount(params: seq<Param>, slot: Option<nat>, default: nat): nat
    requires CountArg(params, slot)
  {
    if slot.None? then default else params[slot.value - 1].n
  }

  /** Runs the data query: the join, `WHERE`, `ORDER BY t.created_at DESC`,
      `LIMIT` and `OFFSET`; `None` is a database error. */
  function RunData(tasks: seq<Task>, users: seq<User>, q: Statement, params: seq<Param>): (r: Option<seq<TaskRow>>)
    ensures r.None? <==> !Binds(q, params)
    ensures r.Some? ==> NewestFirst(r.value, RowStamp)
    ensures r.Some? && q.limitSlot.Some? ==> |r.value| <= SlotCount(params, q.limitSlot, 0)
    ensures r.Some? ==> forall k :: 0 <= k < |r.value| ==>
      r.value[k].task in tasks && Satisfies(q.conds, params, r.value[k].task)
  {
    if !Binds(q, params) then None
    else
      var rows := SortNewestFirst(JoinAssignees(Where(tasks, q.conds, params), users), RowStamp);
      WindowFacts(rows, SlotCount(params, q.limitSlot, 0), SlotCount(params, q.offsetSlot, 0));
      WindowFacts(rows, |rows|, SlotCount(params, q.offsetSlot, 0));
      if q.limitSlot.None? then Some(Window(rows, |rows|, SlotCount(params, q.offsetSlot, 0)))
      else Some(Window(rows, SlotCount(params, q.limitSlot, 0), SlotCount(params, q.offsetSlot, 0)))
  }

  /** Runs the count query, `SELECT COUNT(*) FROM tasks t WHERE …`. */
  function RunCount(tasks: seq<Task>, q: Statement, params: seq<Param>): (r: Option<nat>)
    ensures r.None? <==> !Binds(q, params)
    ensures r.Some? ==> r.value <= |tasks|
  {
    if !Binds(q, params) then None else Some(|Where(tasks, q.conds, params)|)
  }

  // ---------------------------------------------------------------------
  // GET /  (list the caller's tasks)
  // ---------------------------------------------------------------------

  /** `req.query`: filters and paging, each possibly absent. */
  datatype ListQuery = ListQuery(status: Option<string>, search: Option<string>, page: Option<int>, limit: Option<int>)

  /** The `pagination` object of the reply. `totalPages` is `None` where
      `Math.ceil(totalItems / 0)` is `Infinity` or `NaN`, which JSON sends as `null`. */
  datatype Pagination = Pagination(totalItems: nat, totalPages: Option<nat>, currentPage: int, itemsPerPage: int)

  datatype Listing = Listing(tasks: seq<TaskRow>, pagination: Pagination)

  /** Page and limit, when given, are positive integers. */
  predicate ValidPaging(q: ListQuery) {
    (q.page.Some? ==> q.page.value >= 1) && (q.limit.Some? ==> q.limit.value >= 1)
  }

  function PageNumber(q: ListQuery): int {
    q.page.GetOr(1)
  }

  function PageLimit(q: ListQuery): int {
    q.limit.GetOr(10)
  }

  /** `(pageNumber - 1) * pageLimit` for whatever integers the query
      string gave: the rows before the requested page, built from `Times`
      sign by sign (see `OffsetIsProduct`). */
  function Offset(q: ListQuery): int {
    var a := PageNumber(q) - 1;
    var b := PageLimit(q);
    var size: int := Times(if a < 0 then -a else a, if b < 0 then -b else b);
    if (a < 0) != (b < 0) then -size else size
  }

  /** The offset is the product the handler computes. */
  lemma OffsetIsProduct(q: ListQuery)
    ensures Offset(q) == (PageNumber(q) - 1) * PageLimit(q)
  {
    var a := PageNumber(q) - 1;
    var b := PageLimit(q);
    var a' := if a < 0 then -a else a;
    var b' := if b < 0 then -b else b;
    TimesIsProduct(a', b');
    assert a' * b' == if (a < 0) != (b < 0) then -(a * b) else a * b;
  }

  /** With a positive page and limit the offset is the `Times` that `Page` uses. */
  lemma OffsetOfValid(q: ListQuery)
    requires ValidPaging(q)
    ensures Offset(q) == Times(PageNumber(q) - 1, PageLimit(q))
  {
  }

  /** The offset is negative exactly when one factor is negative and the
      other positive. */
  lemma OffsetSign(q: ListQuery)
    ensures Offset(q) < 0 <==>
      (PageNumber(q) < 1 && PageLimit(q) > 0) || (PageNumber(q) > 1 && PageLimit(q) < 0)
  {
    var a := PageNumber(q) - 1;
    var b := PageLimit(q);
    TimesZero(if a < 0 then -a else a, if b < 0 then -b else b);
  }

  /** The paging the database runs: `LIMIT` and `OFFSET` both non-negative. */
  predicate PagingRuns(q: ListQuery) {
    PageLimit(q) == 0 || (PageLimit(q) > 0 && PageNumber(q) >= 1)
  }

  function ListedBy(callerId: nat, q: ListQuery): Task -> bool {
    t => Listed(t, callerId, q.status, q.search)
  }

  /** Every task the listing is about: each task of the table that passes
      the filters, in table order (see `MatchingSelects`). */
  function Matching(tasks: seq<Task>, callerId: nat, q: ListQuery): (r: seq<Task>)
    ensures |r| <= |tasks|
    ensures forall k :: 0 <= k < |r| ==> r[k] in tasks && Listed(r[k], callerId, q.status, q.search)
    ensures forall k :: 0 <= k < |tasks| && Listed(tasks[k], callerId, q.status, q.search) ==> tasks[k] in r
  {
    Filter(tasks, ListedBy(callerId, q))
  }

  /** The matching tasks are every task that passes the filters, each as
      often as it occurs, in table order, and nothing else. */
  lemma MatchingSelects(tasks: seq<Task>, callerId: nat, q: ListQuery)
    ensures var r := Matching(tasks, callerId, q);
      Subsequence(r, tasks) && Selects(r, tasks, ListedBy(callerId, q))
  {
    FilterSelects(tasks, ListedBy(callerId, q));
  }

  /** A `WHERE` whose conjuncts mean `Listed` selects exactly the matching tasks. */
  lemma WhereIsMatching(tasks: seq<Task>, conds: seq<Cond>, params: seq<Param>, callerId: nat, q: ListQuery)
    requires forall t :: Satisfies(conds, params, t) <==> Listed(t, callerId, q.status, q.search)
    ensures Where(tasks, conds, params) == Matching(tasks, callerId, q)
  {
    FilterAgrees(tasks, Satisfying(conds, params), ListedBy(callerId, q));
  }

  /** Every row the listing can show, newest first. */
  function ListedRows(tasks: seq<Task>, users: seq<User>, callerId: nat, q: ListQuery): seq<TaskRow> {
    SortNewestFirst(JoinAssignees(Matching(tasks, callerId, q), users), RowStamp)
  }

  /** The listing handler. Its two statements are run with the parameter
      lists the handler builds. Page and limit are taken as given: a negative
      `LIMIT` or `OFFSET` makes the data query fail and the handler answer
      500; a limit of 0 gives an empty page and a `null` page count. With a
      positive page and limit the reply is the requested page of the
      caller's matching tasks, newest first, and a total that counts every
      matching task whatever the page. */
  function ListTasks(tasks: seq<Task>, users: seq<User>, caller: Caller, q: ListQuery): (r: Reply<Listing>)
    ensures r.Ok? <==> PagingRuns(q)
    ensures r.Fail? ==> r == Fail(500, SERVER_ERROR_MESSAGE)
    ensures r.Ok? ==>
      && r.value.pagination.totalItems == |Matching(tasks, caller.id, q)|
      && r.value.pagination.currentPage == PageNumber(q)
      && r.value.pagination.itemsPerPage == PageLimit(q)
      && (r.value.pagination.totalPages.None? <==> PageLimit(q) == 0)
      && |r.value.tasks| <= PageLimit(q)
      && NewestFirst(r.value.tasks, RowStamp)
      && ShowsListed(r.value.tasks, tasks, caller.id, q)
    ensures ValidPaging(q) ==>
      && r.Ok?
      && r.value.tasks == Page(ListedRows(tasks, users, caller.id, q), PageNumber(q), PageLimit(q))
      && r.value.pagination.totalPages == Some(CeilDiv(|Matching(tasks, caller.id, q)|, PageLimit(q)))
  {
    var run := RunListing(tasks, users, caller.id, q);
    var r := Respond(run, q);
    assert r.Ok? <==> PagingRuns(q);
    assert ValidPaging(q) ==> r.Ok? && r.value.tasks == Page(ListedRows(tasks, users, caller.id, q), PageNumber(q), PageLimit(q)) by {
      if ValidPaging(q) {
        assert PagingRuns(q);
        RunListingPage(tasks, users, caller.id, q);
      }
    }
    r
  }

  /** The end of the handler: 500 when a statement failed, otherwise the rows
      and the `pagination` object, `Math.ceil(totalItems / pageLimit)` being
      `null` for a limit of 0. */
  function Respond(run: ListRun, q: ListQuery): (r: Reply<Listing>)
    requires run.rows.Some? ==> PageLimit(q) >= 0
    ensures r.Ok? <==> run.rows.Some? && run.count.Some?
    ensures r.Fail? ==> r == Fail(500, SERVER_ERROR_MESSAGE)
    ensures r.Ok? ==>
      && r.value.tasks == run.rows.value
      && r.value.pagination == Pagination(run.count.value,
           if PageLimit(q) == 0 then None else Some(CeilDiv(run.count.value, PageLimit(q))),
           PageNumber(q), PageLimit(q))
  {
    var pageNumber := PageNumber(q);
    var pageLimit := PageLimit(q);
    if run.rows.None? || run.count.None? then Fail(500, SERVER_ERROR_MESSAGE)
    else
      var totalItems := run.count.value;
      var totalPages := if pageLimit == 0 then None else Some(CeilDiv(totalItems, pageLimit));
      Ok(Listing(run.rows.value, Pagination(totalItems, totalPages, pageNumber, pageLimit)))
  }

  /** Every row shown is a task of the table that the listing's filter keeps. */
  predicate ShowsListed(rows: seq<TaskRow>, tasks: seq<Task>, callerId: nat, q: ListQuery) {
    forall k :: 0 <= k < |rows| ==> rows[k].task in tasks && Listed(rows[k].task, callerId, q.status, q.search)
  }

  /** The results of the listing's two statements: the rows of the data
      query and the number of the count query, each `None` when it fails. */
  datatype ListRun = ListRun(rows: Option<seq<TaskRow>>, count: Option<nat>)

  /** Builds the listing's statements with `LIMIT pageLimit OFFSET
      (pageNumber - 1) * pageLimit` for any page and limit, and runs both.
      The data query runs exactly when `LIMIT` and `OFFSET` are non-negative
      and then yields at most `LIMIT` matching rows newest first, the
      requested page for a positive page and limit; the count query always
      runs and counts the matching tasks. */
  function RunListing(tasks: seq<Task>, users: seq<User>, callerId: nat, q: ListQuery): (run: ListRun)
    ensures run.rows.Some? <==> PagingRuns(q)
    ensures run.rows.Some? ==>
      && |run.rows.value| <= PageLimit(q)
      && NewestFirst(run.rows.value, RowStamp)
      && ShowsListed(run.rows.value, tasks, callerId, q)
    ensures run.count == Some(|Matching(tasks, callerId, q)|)
  {
    var plan := PlanList(callerId, q.status, q.search, PageLimit(q), Offset(q));
    var rows := RunData(tasks, users, plan.data, plan.params);
    OffsetSign(q);
    WhereIsMatching(tasks, plan.count.conds, plan.countParams, callerId, q);
    assert rows.Some? ==> SlotCount(plan.params, plan.data.limitSlot, 0) == PageLimit(q);
    ListRun(rows, RunCount(tasks, plan.count, plan.countParams))
  }

  /** With a positive page and limit the data query yields exactly the
      requested page of the listable rows. */
  lemma RunListingPage(tasks: seq<Task>, users: seq<User>, callerId: nat, q: ListQuery)
    requires ValidPaging(q)
    ensures RunListing(tasks, users, callerId, q).rows
      == Some(Page(ListedRows(tasks, users, callerId, q), PageNumber(q), PageLimit(q)))
  {
    ListFacts(tasks, users, callerId, q, PlanList(callerId, q.status, q.search, PageLimit(q), Offset(q)));
  }

  /** Running the planned statements computes the reference listing. */
  lemma ListFacts(tasks: seq<Task>, users: seq<User>, callerId: nat, q: ListQuery, plan: ListPlan)
    requires ValidPaging(q)
    requires plan == PlanList(callerId, q.status, q.search, PageLimit(q), Offset(q))
    ensures RunData(tasks, users, plan.data, plan.params)
      == Some(Page(ListedRows(tasks, users, callerId, q), PageNumber(q), PageLimit(q)))
    ensures RunCount(tasks, plan.count, plan.countParams) == Some(|Matching(tasks, callerId, q)|)
  {
    OffsetOfValid(q);
    var offset := Times(PageNumber(q) - 1, PageLimit(q));
    WhereIsMatching(tasks, plan.data.conds, plan.params, callerId, q);
    WhereIsMatching(tasks, plan.count.conds, plan.countParams, callerId, q);
    assert Binds(plan.data, plan.params);
    assert SlotCount(plan.params, plan.data.limitSlot, 0) == PageLimit(q);
    assert SlotCount(plan.params, plan.data.offsetSlot, 0) == offset;
  }

  /** Whatever the caller's role, the page shows only the caller's own tasks
      that pass the filters. */
  lemma ListingShowsOnlyOwnMatches(tasks: seq<Task>, users: seq<User>, caller: Caller, q: ListQuery)
    ensures var r := ListTasks(tasks, users, caller, q);
      r.Ok? ==> forall k :: 0 <= k < |r.value.tasks| ==>
        && r.value.tasks[k].task in tasks
        && r.value.tasks[k].task.assigneeId == Some(caller.id)
        && Listed(r.value.tasks[k].task, caller.id, q.status, q.search)
  {
  }

  /** Every row of a page is a matching task of the table. */
  lemma PageRowsListed(tasks: seq<Task>, users: seq<User>, callerId: nat, q: ListQuery)
    requires ValidPaging(q)
    ensures var page := Page(ListedRows(tasks, users, callerId, q), PageNumber(q), PageLimit(q));
      forall k :: 0 <= k < |page| ==> page[k].task in tasks && Listed(page[k].task, callerId, q.status, q.search)
  {
    ListedRowsFacts(tasks, users, callerId, q);
    PageKeepsListed(ListedRows(tasks, users, callerId, q), PageNumber(q), PageLimit(q), tasks, callerId, q);
  }

  lemma PageKeepsListed(all: seq<TaskRow>, page: nat, limit: nat, tasks: seq<Task>, callerId: nat, q: ListQuery)
    requires page >= 1
    requires forall k :: 0 <= k < |all| ==> all[k].task in tasks && Listed(all[k].task, callerId, q.status, q.search)
    ensures forall k :: 0 <= k < |Page(all, page, limit)| ==>
      Page(all, page, limit)[k].task in tasks && Listed(Page(all, page, limit)[k].task, callerId, q.status, q.search)
  {
    var w := Page(all, page, limit);
    forall k | 0 <= k < |w|
      ensures w[k].task in tasks && Listed(w[k].task, callerId, q.status, q.search)
    {
      assert w[k] == all[Times(page - 1, limit) + k];
    }
  }

  /** The page lists its rows newest first. */
  lemma ListingIsNewestFirst(tasks: seq<Task>, users: seq<User>, caller: Caller, q: ListQuery)
    ensures var r := ListTasks(tasks, users, caller, q);
      r.Ok? ==> NewestFirst(r.value.tasks, RowStamp)
  {
  }

  /** Every listable row is a matching task of the table. */
  lemma ListedRowsFacts(tasks: seq<Task>, users: seq<User>, callerId: nat, q: ListQuery)
    ensures var all := ListedRows(tasks, users, callerId, q);
      forall k :: 0 <= k < |all| ==> all[k].task in tasks && Listed(all[k].task, callerId, q.status, q.search)
  {
    var joined := JoinAssignees(Matching(tasks, callerId, q), users);
    var all := ListedRows(tasks, users, callerId, q);
    forall k | 0 <= k < |all|
      ensures all[k].task in tasks && Listed(all[k].task, callerId, q.status, q.search)
    {
      assert all[k] in joined;
    }
  }

  /** A window of a newest-first sequence holds rows of it, still newest first. */
  lemma WindowFacts(all: seq<TaskRow>, limit: nat, offset: nat)
    ensures forall k :: 0 <= k < |Window(all, limit, offset)| ==> Window(all, limit, offset)[k] in all
    ensures NewestFirst(all, RowStamp) ==> NewestFirst(Window(all, limit, offset), RowStamp)
  {
    var w := Window(all, limit, offset);
    assert forall k :: 0 <= k < |w| ==> w[k] == all[offset + k];
  }

  /** When the caller's own user row exists, the join drops none of the
      caller's tasks: the total counts exactly the rows the pages show, and
      reading pages 1 to `totalPages` shows every one of them once. */
  lemma PagesCoverListing(tasks: seq<Task>, users: seq<User>, caller: Caller, q: ListQuery)
    requires ValidPaging(q)
    requires FindUser(users, caller.id).Some?
    ensures var r := ListTasks(tasks, users, caller, q);
      && r.value.pagination.totalItems == |ListedRows(tasks, users, caller.id, q)|
      && r.value.pagination.totalPages.Some?
      && FirstPages(ListedRows(tasks, users, caller.id, q), r.value.pagination.totalPages.value, PageLimit(q))
         == ListedRows(tasks, users, caller.id, q)
  {
    ListedRowsCount(tasks, users, caller.id, q);
    AllPagesCoverAll(ListedRows(tasks, users, caller.id, q), PageLimit(q));
  }

  /** When the caller's own user row exists, every matching task joins (it is
      assigned to the caller), so the listing has one row per match. */
  lemma ListedRowsCount(tasks: seq<Task>, users: seq<User>, callerId: nat, q: ListQuery)
    requires FindUser(users, callerId).Some?
    ensures |ListedRows(tasks, users, callerId, q)| == |Matching(tasks, callerId, q)|
  {
    var m := Matching(tasks, callerId, q);
    assert forall k :: 0 <= k < |m| ==> HasAssignee(m[k], users);
  }

  /** 25 matching tasks at 10 per page: 3 pages, the third holding 5 tasks. */
  lemma TwentyFiveTasksTenPerPage(tasks: seq<Task>, users: seq<User>, caller: Caller, status: Option<string>, search: Option<string>)
    requires FindUser(users, caller.id).Some?
    requires |Matching(tasks, caller.id, ListQuery(status, search, Some(3), Some(10)))| == 25
    ensures var r := ListTasks(tasks, users, caller, ListQuery(status, search, Some(3), Some(10)));
      r.value.pagination.totalPages == Some(3) && |r.value.tasks| == 5
  {
    var q := ListQuery(status, search, Some(3), Some(10));
    ListedRowsCount(tasks, users, caller.id, q);
    TenPerPageArithmetic();
    assert ValidPaging(q);
  }

  lemma TenPerPageArithmetic()
    ensures CeilDiv(25, 10) == 3 && Times(2, 10) == 20
  {
  }

  /** For a search term without `%`, `_` or backslash, the title filter is a
      case-insensitive substring test. */
  lemma SearchMeansSubstring(t: Task, callerId: nat, status: Option<string>, search: string)
    requires search != "" && Plain(search)
    ensures Listed(t, callerId, status, Some(search)) <==>
      && t.assigneeId == Some(callerId)
      && (Active(status) ==> t.status == Some(status.value))
      && t.title.Some? && IsSubstring(Lower(search), Lower(t.title.value))
  {
    if t.title.Some? {
      SearchIsCaseInsensitiveSubstring(t.title.value, search);
    }
  }

  // ---------------------------------------------------------------------
  // PUT /:id, DELETE /:id, POST /
  // ---------------------------------------------------------------------

  /** A handler's reply together with the `tasks` table it leaves behind. */
  datatype Written<T> = Written(reply: Reply<T>, tasks: seq<Task>)

  const NOT_FOUND_MESSAGE: string := "Task not found or user not authorized."
  const DELETED_MESSAGE: string := "Task deleted successfully."
  const SERVER_ERROR_MESSAGE: string := "Server Error"

  /** Whether the `DATE` column takes the value bound for `due_date`: NULL
      always, an empty text never, and any other text as the database's date
      input conversion `isDate` decides. A refused value fails the whole
      statement when its parameters are bound, before any row is looked at,
      and the handler's `catch` answers 500. */
  predicate DateAccepted(isDate: string -> bool, due: Option<string>) {
    due.None? || (due.value != "" && isDate(due.value))
  }

  /** The row is the task `taskId` and is assigned to the caller: the whole
      condition of both `UPDATE` and `DELETE`. */
  predicate Owned(t: Task, taskId: nat, callerId: nat) {
    t.taskId == taskId && t.assigneeId == Some(callerId)
  }

  /** `req.body` of an update; an absent field is `undefined`, stored as NULL. */
  datatype UpdateBody = UpdateBody(
    title: Option<string>,
    description: Option<string>,
    status: Option<string>,
    dueDate: Option<string>,
    assigneeId: Option<nat>)

  /** `n` is `t` with exactly the five body columns replaced, unmerged. */
  predicate UpdatedFrom(n: Task, t: Task, body: UpdateBody) {
    && n.taskId == t.taskId
    && n.title == body.title
    && n.description == body.description
    && n.status == body.status
    && n.dueDate == body.dueDate
    && n.assigneeId == body.assigneeId
    && n.filePath == t.filePath
    && n.requestMessage == t.requestMessage
    && n.createdAt == t.createdAt
  }

  /** The `SET` clause on one row: the five body columns replace the row's
      own, NULL for an absent field, and every other column is kept. */
  function Overwrite(t: Task, body: UpdateBody): (n: Task)
    ensures UpdatedFrom(n, t, body)
    ensures forall m: Task :: UpdatedFrom(m, t, body) ==> m == n
  {
    t.(title := body.title, description := body.description, status := body.status,
       dueDate := body.dueDate, assigneeId := body.assigneeId)
  }

  /** The update handler: `UPDATE … WHERE task_id = id AND assignee_id = caller`
      and the first returned row, 404 when no row qualifies, and 500 with the
      table untouched when the due date is not a date. */
  function UpdateTask(tasks: seq<Task>, callerId: nat, taskId: nat, body: UpdateBody, isDate: string -> bool)
    : (w: Written<Task>)
    ensures !DateAccepted(isDate, body.dueDate) ==> w == Written(Fail(500, SERVER_ERROR_MESSAGE), tasks)
    ensures |w.tasks| == |tasks|
    ensures DateAccepted(isDate, body.dueDate) ==>
      forall k :: 0 <= k < |tasks| && Owned(tasks[k], taskId, callerId) ==> UpdatedFrom(w.tasks[k], tasks[k], body)
    ensures forall k :: 0 <= k < |tasks| && !Owned(tasks[k], taskId, callerId) ==> w.tasks[k] == tasks[k]
    ensures w.reply.Ok? <==>
      DateAccepted(isDate, body.dueDate) && exists k :: 0 <= k < |tasks| && Owned(tasks[k], taskId, callerId)
    ensures w.reply.Ok? ==> w.reply.value in w.tasks && w.reply.value.taskId == taskId
    ensures w.reply.Ok? ==> exists k :: 0 <= k < |tasks| && Owned(tasks[k], taskId, callerId) && UpdatedFrom(w.reply.value, tasks[k], body)
    ensures !w.reply.Ok? ==> w.tasks == tasks
    ensures !w.reply.Ok? && DateAccepted(isDate, body.dueDate) ==> w.reply == Fail(404, NOT_FOUND_MESSAGE)
  {
    if !DateAccepted(isDate, body.dueDate) then Written(Fail(500, SERVER_ERROR_MESSAGE), tasks)
    else
      var updated := seq(|tasks|, k requires 0 <= k < |tasks| =>
        if Owned(tasks[k], taskId, callerId) then Overwrite(tasks[k], body) else tasks[k]);
      var hit := Filter(tasks, t => Owned(t, taskId, callerId));
      if |hit| == 0 then
        assert updated == tasks;
        Written(Fail(404, NOT_FOUND_MESSAGE), tasks)
      else
        var k :| 0 <= k < |tasks| && tasks[k] == hit[0];
        assert updated[k] == Overwrite(hit[0], body);
        Written(Ok(Overwrite(hit[0], body)), updated)
  }

  /** With the primary key on `task_id`, a successful update rewrites exactly one row. */
  lemma UpdateRewritesOneRow(tasks: seq<Task>, callerId: nat, taskId: nat, body: UpdateBody, isDate: string -> bool)
    requires UniqueTaskIds(tasks)
    ensures var w := UpdateTask(tasks, callerId, taskId, body, isDate);
      w.reply.Ok? ==> exists k :: (0 <= k < |tasks|
        && Owned(tasks[k], taskId, callerId)
        && w.tasks == tasks[k := w.reply.value])
  {
    var w := UpdateTask(tasks, callerId, taskId, body, isDate);
    if w.reply.Ok? {
      var k :| 0 <= k < |tasks| && Owned(tasks[k], taskId, callerId) && UpdatedFrom(w.reply.value, tasks[k], body);
      assert forall j :: 0 <= j < |tasks| && j != k ==> !Owned(tasks[j], taskId, callerId);
      assert w.tasks == tasks[k := w.reply.value];
    }
  }

  function NotOwned(taskId: nat, callerId: nat): Task -> bool {
    t => !Owned(t, taskId, callerId)
  }

  /** The table without the rows `Owned` by the caller under `taskId`: every
      other row kept, in table order (see `RemoveKeepsOthers`). */
  function RemoveOwned(tasks: seq<Task>, taskId: nat, callerId: nat): (r: seq<Task>)
    ensures |r| <= |tasks|
    ensures forall k :: 0 <= k < |r| ==> r[k] in tasks && !Owned(r[k], taskId, callerId)
    ensures forall k :: 0 <= k < |tasks| && !Owned(tasks[k], taskId, callerId) ==> tasks[k] in r
    ensures |r| == |tasks| <==> forall k :: 0 <= k < |tasks| ==> !Owned(tasks[k], taskId, callerId)
    ensures |r| == |tasks| ==> r == tasks
  {
    Filter(tasks, NotOwned(taskId, callerId))
  }

  /** Removing keeps every other row, as often as it occurs, in table order. */
  lemma RemoveKeepsOthers(tasks: seq<Task>, taskId: nat, callerId: nat)
    ensures var r := RemoveOwned(tasks, taskId, callerId);
      Subsequence(r, tasks) && Selects(r, tasks, NotOwned(taskId, callerId))
  {
    FilterSelects(tasks, NotOwned(taskId, callerId));
  }

  /** With `task_id` a key, a delete removes at most one row. */
  lemma {:induction false} RemoveAtMostOne(tasks: seq<Task>, taskId: nat, callerId: nat)
    ensures UniqueTaskIds(tasks) ==> |RemoveOwned(tasks, taskId, callerId)| >= |tasks| - 1
    decreases |tasks|
  {
    if |tasks| > 0 && UniqueTaskIds(tasks) {
      var rest := tasks[1..];
      assert UniqueTaskIds(rest);
      if Owned(tasks[0], taskId, callerId) {
        assert forall k :: 0 <= k < |rest| ==> !Owned(rest[k], taskId, callerId);
        assert RemoveOwned(rest, taskId, callerId) == rest;
      } else {
        RemoveAtMostOne(rest, taskId, callerId);
      }
    }
  }

  /** The delete handler: `DELETE … WHERE task_id = id AND assignee_id = caller`,
      with no condition on the status, and a message rather than the row. */
  function DeleteTask(tasks: seq<Task>, callerId: nat, taskId: nat): (w: Written<string>)
    ensures Subsequence(w.tasks, tasks) && Selects(w.tasks, tasks, NotOwned(taskId, callerId))
    ensures forall k :: 0 <= k < |w.tasks| ==> w.tasks[k] in tasks && !Owned(w.tasks[k], taskId, callerId)
    ensures forall k :: 0 <= k < |tasks| && !Owned(tasks[k], taskId, callerId) ==> tasks[k] in w.tasks
    ensures w.reply.Ok? <==> exists k :: 0 <= k < |tasks| && Owned(tasks[k], taskId, callerId)
    ensures w.reply.Ok? ==> w.reply.value == DELETED_MESSAGE && |w.tasks| < |tasks|
    ensures w.reply.Ok? && UniqueTaskIds(tasks) ==> |w.tasks| == |tasks| - 1
    ensures !w.reply.Ok? ==> w.tasks == tasks && w.reply == Fail(404, NOT_FOUND_MESSAGE)
  {
    var kept := RemoveOwned(tasks, taskId, callerId);
    RemoveKeepsOthers(tasks, taskId, callerId);
    RemoveAtMostOne(tasks, taskId, callerId);
    if |kept| == |tasks| then Written(Fail(404, NOT_FOUND_MESSAGE), tasks)
    else Written(Ok(DELETED_MESSAGE), kept)
  }

  /** `req.body` of a create, every field a multipart text field or absent. */
  datatype CreateBody = CreateBody(
    title: Option<string>,
    description: Option<string>,
    status: Option<string>,
    dueDate: Option<string>,
    assigneeId: Option<nat>)

  /** The disk name multer gives an upload: `Date.now() + '-' + originalname`. */
  function StoredFileName(millis: nat, originalName: string): (name: string)
    ensures '-' !in originalName ==> AfterLast(name, '-') == originalName
    ensures BeforeFirst(name, '-') == Decimal(millis)
  {
    var name := Decimal(millis) + "-" + originalName;
    assert name[|Decimal(millis)|] == '-';
    assert '-' !in Decimal(millis) by {
      forall k | 0 <= k < |Decimal(millis)| ensures Decimal(millis)[k] != '-' {
        assert IsDigit(Decimal(millis)[k]);
      }
    }
    BeforeFirstAt(name, Decimal(millis), '-');
    AfterLastAt(name, originalName, '-');
    name
  }

  lemma StoredFileNameParts(millis: nat, originalName: string)
    ensures StoredFileName(millis, originalName) == Decimal(millis) + ("-" + originalName)
  {
  }

  /** The create handler: inserts one row built from the body, with no role
      check; `file_path` is the upload's path with every backslash turned
      into a slash, or NULL without an upload. A due date the `DATE` column
      refuses fails the insert, which answers 500 and adds nothing. */
  function CreateTask(tasks: seq<Task>, body: CreateBody, uploadPath: Option<string>, now: int, isDate: string -> bool)
    : (w: Written<Task>)
    ensures w.reply.Ok? <==> DateAccepted(isDate, body.dueDate)
    ensures !w.reply.Ok? ==> w == Written(Fail(500, SERVER_ERROR_MESSAGE), tasks)
    ensures w.reply.Ok? ==> w.tasks == tasks + [w.reply.value]
    ensures w.reply.Ok? ==> var t := w.reply.value;
      && t.title == body.title && t.description == body.description && t.status == body.status
      && t.dueDate == body.dueDate && t.assigneeId == body.assigneeId
      && t.requestMessage.None? && t.createdAt == now
    ensures w.reply.Ok? ==> forall k :: 0 <= k < |tasks| ==> tasks[k].taskId != w.reply.value.taskId
    ensures w.reply.Ok? ==> w.reply.value.filePath == (if uploadPath.None? then None else Some(SlashPath(uploadPath.value)))
    ensures UniqueTaskIds(tasks) ==> UniqueTaskIds(w.tasks)
  {
    if !DateAccepted(isDate, body.dueDate) then Written(Fail(500, SERVER_ERROR_MESSAGE), tasks)
    else
      var filePath := if uploadPath.Some? then Some(SlashPath(uploadPath.value)) else None;
      var row := Task(NextTaskId(tasks), body.title, body.description, body.status, body.dueDate,
                      body.assigneeId, filePath, None, now);
      Written(Ok(row), tasks + [row])
  }
}

=== FILE: text.dfy ===
/** The JavaScript string operations the application relies on:
    `trim`, `split(c)[0]`, `split(c).pop()`, `replace(/\\/g, '/')`,
    `String(n)` on a non-negative integer, and ASCII lower-casing. */
module Text {

  /** JavaScript's WhiteSpace and LineTerminator code points, the set `String.prototype.trim` removes. */
  predicate IsSpace(c: char) {
    || c == ' ' || c == '\t' || c == '\n' || c == '\r'
    || c == '\U{000B}' || c == '\U{000C}' || c == '\U{00A0}' || c == '\U{1680}'
    || ('\U{2000}' <= c <= '\U{200A}')
    || c == '\U{2028}' || c == '\U{2029}' || c == '\U{202F}' || c == '\U{205F}'
    || c == '\U{3000}' || c == '\U{FEFF}'
  }

  predicate AllSpace(s: string) {
    forall k :: 0 <= k < |s| ==> IsSpace(s[k])
  }

  /** `r` is `s` with its leading and trailing white space cut off, and nothing else. */
  predicate TrimmedOf(r: string, s: string) {
    && (exists i :: 0 <= i <= |s| - |r| && s[i..i + |r|] == r && AllSpace(s[..i]) && AllSpace(s[i + |r|..]))
    && (|r| > 0 ==> !IsSpace(r[0]) && !IsSpace(r[|r| - 1]))
  }

  function TrimStart(s: string): (r: string)
    ensures |r| <= |s| && r == s[|s| - |r|..]
    ensures AllSpace(s[..|s| - |r|])
    ensures |r| > 0 ==> !IsSpace(r[0])
  {
    if |s| > 0 && IsSpace(s[0]) then TrimStart(s[1..]) else s
  }

  function TrimEnd(s: string): (r: string)
    ensures |r| <= |s| && r == s[..|r|]
    ensures AllSpace(s[|r|..])
    ensures |r| > 0 ==> !IsSpace(r[|r| - 1])
  {
    if |s| > 0 && IsSpace(s[|s| - 1]) then TrimEnd(s[..|s| - 1]) else s
  }

  /** `String.prototype.trim`. */
  function Trim(s: string): (r: string)
    ensures TrimmedOf(r, s)
    ensures |r| == 0 <==> AllSpace(s)
  {
    var a := TrimStart(s);
    var r := TrimEnd(a);
    var i := |s| - |a|;
    assert s[i..i + |r|] == a[..|r|] == r;
    assert s[i + |r|..] == a[|r|..];
    TrimBothEnds(s, i, r);
    r
  }

  /** `r`, found at `i` in `s` with only white space around it and none at its ends, is `s` trimmed. */
  lemma TrimBothEnds(s: string, i: nat, r: string)
    requires i + |r| <= |s| && s[i..i + |r|] == r
    requires AllSpace(s[..i]) && AllSpace(s[i + |r|..])
    requires |r| > 0 ==> !IsSpace(r[0]) && !IsSpace(r[|r| - 1])
    ensures TrimmedOf(r, s)
    ensures |r| == 0 <==> AllSpace(s)
  {
    if |r| == 0 {
      assert s == s[..i] + s[i + |r|..];
      AllSpaceConcat(s[..i], s[i + |r|..]);
    } else {
      assert r[0] == s[i];
    }
  }

  lemma AllSpaceConcat(x: string, y: string)
    requires AllSpace(x) && AllSpace(y)
    ensures AllSpace(x + y)
  {
    forall k | 0 <= k < |x + y|
      ensures IsSpace((x + y)[k])
    {
      if k < |x| {
        assert (x + y)[k] == x[k];
      } else {
        assert (x + y)[k] == y[k - |x|];
      }
    }
  }

  /** `s.split(c)[0]`: everything before the first `c`, or all of `s` when there is none. */
  function BeforeFirst(s: string, c: char): (r: string)
    ensures |r| <= |s| && r == s[..|r|]
    ensures c !in r
    ensures |r| < |s| ==> s[|r|] == c
  {
    if |s| == 0 || s[0] == c then "" else [s[0]] + BeforeFirst(s[1..], c)
  }

  /** `s.split(c).pop()`: everything after the last `c`, or all of `s` when there is none. */
  function AfterLast(s: string, c: char): (r: string)
    ensures |r| <= |s| && r == s[|s| - |r|..]
    ensures c !in r
    ensures |r| < |s| ==> s[|s| - |r| - 1] == c
  {
    if |s| == 0 || s[|s| - 1] == c then "" else AfterLast(s[..|s| - 1], c) + [s[|s| - 1]]
  }

  /** `a` is what comes before the first `c` of `s` when `c` follows `a` and is not in it. */
  lemma BeforeFirstAt(s: string, a: string, c: char)
    requires |a| < |s| && s[..|a|] == a && s[|a|] == c && c !in a
    ensures BeforeFirst(s, c) == a
  {
  }

  /** `b` is what comes after the last `c` of `s` when `c` precedes `b` and is not in it. */
  lemma AfterLastAt(s: string, b: string, c: char)
    requires |b| < |s| && s[|s| - |b|..] == b && s[|s| - |b| - 1] == c
    ensures c !in b ==> AfterLast(s, c) == b
  {
  }

  /** `s.replace(/\\/g, '/')`. */
  function SlashPath(s: string): (r: string)
    ensures |r| == |s|
    ensures '\\' !in r
    ensures forall k :: 0 <= k < |s| && s[k] == '\\' ==> r[k] == '/'
    ensures forall k :: 0 <= k < |s| && s[k] != '\\' ==> r[k] == s[k]
  {
    seq(|s|, k requires 0 <= k < |s| => if s[k] == '\\' then '/' else s[k])
  }

  /** Normalising twice is normalising once, and a path differs from its
      normal form exactly where it has a backslash. */
  lemma SlashPathNormalForm(s: string)
    ensures SlashPath(SlashPath(s)) == SlashPath(s)
    ensures SlashPath(s) == s <==> '\\' !in s
  {
    if SlashPath(s) == s {
      assert forall k :: 0 <= k < |s| ==> s[k] != '\\' by {
        forall k | 0 <= k < |s|
          ensures s[k] != '\\'
        {
          assert SlashPath(s)[k] == s[k];
        }
      }
    }
  }

  lemma SlashPathAppend(a: string, b: string)
    ensures SlashPath(a + b) == SlashPath(a) + SlashPath(b)
  {
    assert forall k :: 0 <= k < |a + b| ==> SlashPath(a + b)[k] == (SlashPath(a) + SlashPath(b))[k];
  }

  /** A tail without backslashes comes through the rewrite unchanged. */
  lemma SlashPathPlainTail(pre: string, tail: string)
    requires '\\' !in tail
    ensures |SlashPath(pre + tail)| == |pre| + |tail|
    ensures SlashPath(pre + tail)[|pre|..] == tail
  {
    SlashPathAppend(pre, tail);
    SlashPathPlain(tail);
  }

  /** A path without backslashes is left as it is. */
  lemma SlashPathPlain(s: string)
    requires '\\' !in s
    ensures SlashPath(s) == s
  {
  }

  predicate IsDigit(c: char) {
    '0' <= c <= '9'
  }

  predicate AllDigits(s: string) {
    forall k :: 0 <= k < |s| ==> IsDigit(s[k])
  }

  function DigitChar(d: nat): (c: char)
    requires d < 10
    ensures IsDigit(c)
    ensures c as int == '0' as int + d
  {
    ('0' as int + d) as char
  }

  function DigitValue(c: char): (d: nat)
    requires IsDigit(c)
    ensures d < 10 && DigitChar(d) == c
  {
    c as int - '0' as int
  }

  /** The number a string of decimal digits denotes, most significant first. */
  function DigitsValue(s: string): nat
    requires AllDigits(s)
  {
    if |s| == 0 then 0 else DigitsValue(s[..|s| - 1]) * 10 + DigitValue(s[|s| - 1])
  }

  /** `String(n)` for a non-negative integer: the decimal digits that denote
      `n`, with no sign and no leading zero. */
  function Decimal(n: nat): (r: string)
    ensures |r| > 0 && AllDigits(r)
    ensures |r| > 1 ==> r[0] != '0'
    ensures DigitsValue(r) == n
  {
    if n < 10 then [DigitChar(n)]
    else
      var r := Decimal(n / 10) + [DigitChar(n % 10)];
      assert r[..|r| - 1] == Decimal(n / 10);
      r
  }

  /** A digit string without a leading zero is the `String` of its value, so
      `Decimal` and `DigitsValue` are inverse on canonical numerals and no two
      numbers print alike. */
  lemma {:induction false} DecimalOfDigits(s: string)
    requires |s| > 0 && AllDigits(s)
    requires |s| > 1 ==> s[0] != '0'
    ensures Decimal(DigitsValue(s)) == s
    decreases |s|
  {
    if |s| > 1 {
      var init := s[..|s| - 1];
      assert init[0] == s[0];
      DecimalOfDigits(init);
      LeadingDigitPositive(init);
      var n := DigitsValue(s);
      assert n / 10 == DigitsValue(init) && n % 10 == DigitValue(s[|s| - 1]);
      assert s == init + [s[|s| - 1]];
    }
  }

  /** A numeral that does not start with `0` denotes a positive number. */
  lemma {:induction false} LeadingDigitPositive(s: string)
    requires |s| > 0 && AllDigits(s) && s[0] != '0'
    ensures DigitsValue(s) > 0
    decreases |s|
  {
    if |s| > 1 {
      var init := s[..|s| - 1];
      assert init[0] == s[0];
      LeadingDigitPositive(init);
    }
  }

  /** Different numbers have different decimal strings. */
  lemma DecimalInjective(a: nat, b: nat)
    ensures Decimal(a) == Decimal(b) <==> a == b
  {
  }

  /** ASCII lower-casing of one character. */
  function LowerChar(c: char): (d: char)
    ensures 'A' <= c <= 'Z' ==> d as int == c as int + 32
    ensures !('A' <= c <= 'Z') ==> d == c
  {
    if 'A' <= c <= 'Z' then (c as int + 32) as char else c
  }

  function Lower(s: string): (r: string)
    ensures |r| == |s|
    ensures forall k :: 0 <= k < |s| ==> r[k] == LowerChar(s[k])
  {
    seq(|s|, k requires 0 <= k < |s| => LowerChar(s[k]))
  }

  /** Lower-casing is idempotent. */
  lemma LowerTwice(s: string)
    ensures Lower(Lower(s)) == Lower(s)
  {
  }

  lemma LowerAppend(a: string, b: string)
    ensures Lower(a + b) == Lower(a) + Lower(b)
  {
  }

  /** `needle` occurs in `hay` as a contiguous piece. */
  predicate IsSubstring(needle: string, hay: string) {
    exists k | 0 <= k <= |hay| - |needle| :: OccursAt(needle, hay, k)
  }

  predicate OccursAt(needle: string, hay: string, k: int) {
    0 <= k <= |hay| - |needle| && hay[k..k + |needle|] == needle
  }
}

=== FILE: wrappers.dfy ===
/** Optional values: a SQL NULL column, an absent JSON field, a missing row. */
module Wrappers {

  datatype Option<+T> = None | Some(value: T) {

    /** The value, or `default` when absent (JavaScript's `x || default` on a present, truthy value). */
    function GetOr(default: T): T {
      match this
      case Some(v) => v
      case None => default
    }
  }
}
